=== FILE: README.md ===
# worker: the state-store core of a local process supervisor

`worker` starts named jobs as detached background processes. It records
each running instance as a file `<name>-<pid>` in a state directory, and
the file holds the job's definition. It keeps one log file per job name in
a log directory. It later reports, stops and garbage-collects those
instances.

This project is a Dafny model of that bookkeeping in `src/main.rs`, with
proofs about it:

- **Decimal**: Rust's `i32` formatting (`format!("{}", pid)`) and
  `str::parse::<i32>`. Parsing accepts an optional `+` or `-` followed by
  one or more ASCII digits, within the 32-bit range.
- **StateFile**: the state file name.
  - `Encode` is the `format!("{}-{}", name, pid)` of `start`.
  - `Decode` is `parse_state_filename`. It splits on the *first* dash and
    parses the rest as an `i32`. Its two error cases are `MissingDash` and
    `BadPid`.
- **Jobs**: the `Project` record, its display name (`display`, or else
  `name`), and the first-match searches.
  - `FindByName` is the `iter().find` of `stop`.
  - `Lookup` is `Project::from_str` over an already-read configuration.
- **Store**: `status` and `stop` as pure functions over the directories.
  - The state directory is a map from file name to record.
  - The log directory is the set of job names that have a log file.
  - Liveness is an oracle `alive: int -> bool`. In `stop`, it is one oracle
    per polling pass, because processes die while `stop` waits.
  - The order in which `read_dir` lists the files is a parameter.
  - A file name that does not decode aborts the command. Deletions made
    before the error stay made, as in the source.
  - The 5-second timeout of `stop` is a number of polling passes (`fuel`).
- **Launch**: the loop of `start`.
  - Each iteration is given as a `Step`: what `daemon()` returned in this
    process, and the pid the process then reads as its own.
  - The parent side writes the record. The child side creates the log
    file.
  - The loop fails on a failed fork, and goes on only while the current
    pid is still the one read before the loop.
- **ConfigSearch**: `find_config_file`, as a loop over the ancestors of
  the current directory. A path is a sequence of components, the root is
  the empty path, and "file exists" is an oracle.
- **Lifecycle**: how the commands compose:
  - `status` twice;
  - `status` after `start`;
  - `stop` when nothing runs;
  - `stop` when every process honours the termination request;
  - `stop` of a process that never dies;
  - the early exit of the polling loop.

A pid is accepted only if it fits in an `i32`.

The name is split at the first dash, so the state file of a job whose name
contains a dash never reads back as that job and pid
(`StateFile.DashedNameDoesNotRoundTrip`). What it reads back as depends on
the text after that first dash:

- For job `my-app`, the file is rejected as a bad pid, and `status` and
  `stop` fail on it (`StateFile.DashedNameIsCorrupt`).
- For job `web-` with pid 42, the file `web--42` reads back without error
  as job `web` with pid -42 (`StateFile.TrailingDashMisreads`). `stop` of
  `web-` never signals it, while `stop` of `web` signals pid -42
  (`Lifecycle.TrailingDashMisdirectsStop`).

The helpers `Launch.Launched`, `Jobs.DisplayName`, `Store.NextPass`,
`Store.OneLess`, `Store.LastPass` and `Lifecycle.EndsFinished` have no
contracts of their own.
They are used in the bodies or contracts of the members listed below.

## Model

| member | source | states |
|---|---|---|
| Decimal.Format | src/main.rs:164 | The pid text in a state file name is never empty and never has a plus sign. A non-negative pid is written as digits only, with no leading zero except for 0 itself. A negative pid is a minus sign followed by such digits. |
| Decimal.Parse | src/main.rs:76 | A successful `parse::<i32>` yields a value in the 32-bit range, from non-empty text. A negative value needs a leading minus. |
| Decimal.ParseFormat | src/main.rs:164 | For every `i32`, parsing the text that `format!` writes gives back that same pid. |
| Decimal.ParseAccepts | src/main.rs:76 | Text made of an optional sign and one or more digits, whose signed value fits in an `i32`, parses to exactly that value. |
| Decimal.ParseRejects | src/main.rs:76 | Parsing fails on empty text, on a lone sign, on any character that is neither a digit nor a sign in front, and on a value outside the 32-bit range. |
| Decimal.ParseIsNotCanonical | src/main.rs:76 | `+7`, `007` and `-0` are accepted. `-2147483648` is accepted and `2147483648` is rejected. |
| StateFile.Encode | src/main.rs:164 | A state file name starts with the job's name followed by a dash. |
| StateFile.Decode | src/main.rs:67-78 | A name without a dash is the "doesn't contain -" error. A decoded job name is dash-free and is exactly the text before the first dash. |
| StateFile.DecodeSplit | src/main.rs:73-76 | A dash-free name, a dash and any text decode to that name with the parsed pid. If the text does not parse, the result is the bad-pid error. |
| StateFile.RoundTrip | src/main.rs:73-77 | Decoding the file name written for a dash-free job name and a pid gives back exactly that name and pid. |
| StateFile.DashedNameDoesNotRoundTrip | src/main.rs:73 | For a name that contains a dash, the round trip never holds. Any name decoded from such a file is shorter than the original. |
| StateFile.DashedNameIsCorrupt | src/main.rs:164 | The record written for job `my-app` with pid 42 is rejected as a bad pid when read back. |
| StateFile.EncodeInjective | src/main.rs:164 | Distinct pairs of a dash-free name and a pid get distinct state file names. |
| StateFile.TrailingDashMisreads | src/main.rs:73-76 | The file `web--42`, written for job `web-` with pid 42, reads back without error as job `web` with pid -42. |
| StateFile.DecodeIsNotInjective | src/main.rs:76 | `web-7`, `web-007` and `web-+7` all decode to job `web` with pid 7. |
| Jobs.FindByName | src/main.rs:132 | The search finds a requested definition that has the given name. It finds nothing exactly when no definition has that name. |
| Jobs.FindByNameIsFirst | src/main.rs:132 | The definition found is the first one in the requested list with that name. |
| Jobs.Lookup | src/main.rs:225-236 | A job name resolves to the configuration's first definition of that name. It fails exactly when no definition has the name, and the error carries every configured name in order. |
| Store.StatusScan | src/main.rs:83-98 | In the `status` loop: records of live processes and unlisted files stay unchanged, and nothing is added. The scan succeeds exactly when every listed name decodes. It then deletes exactly the dead listed records, and reports the display names of the live ones. |
| Store.Status | src/main.rs:80-105 | `status` succeeds exactly when every state file name decodes. It then keeps exactly the records whose process is alive, and reports the set of their display names. Even when it fails, it deletes only records of dead processes, so the undecodable file stays. It never touches logs and never adds records. |
| Store.SignalScan | src/main.rs:109-117 | Only listed records of requested jobs are signalled, each at most once. The scan fails exactly when some listed name does not decode. Otherwise every matching record is signalled. |
| Store.PollPass | src/main.rs:125-143 | One polling pass deletes only dead records of requested jobs and adds none. It succeeds exactly when every listed name decodes. It then reports the requested display names of live matching records, with `finished` set exactly when none is alive. |
| Store.PollPassRecords | src/main.rs:132-141 | Unlisted files survive a pass. After a completed pass, a listed record is gone exactly when it was a dead record of a requested job. |
| Store.PollPassLogs | src/main.rs:136-141 | A pass removes only log files of requested jobs. After a completed pass, exactly the logs of jobs with a dead listed record are gone. |
| Store.PollPassDropsLogs | src/main.rs:133-140 | A record a pass deletes takes its job's log file with it. The log file stays gone even when the pass aborts later on an undecodable name. |
| Store.PollPassDisk | src/main.rs:127-143 | Both effects of a pass on the two directories, together. |
| Store.Present | src/main.rs:127 | Re-reading the state directory lists each remaining file once, and only remaining files. |
| Store.FinishedPassClears | src/main.rs:132-141 | After a finished pass over the whole directory, no record of a requested job is left. |
| Store.LiveNamesRemain | src/main.rs:133-135 | Every name a pass reports as alive still has a matching record after the pass. |
| Store.PassReportsAllLive | src/main.rs:132-141 | A completed pass over the whole directory reports exactly the requested display names that still have a record. |
| Store.PollLoop | src/main.rs:119-148 | The polling loop only deletes records and logs of requested jobs. Every record it deletes was found dead by one of its passes, and that record's job has no log file afterwards. It succeeds when every name decodes. `finished` holds exactly when no live name is reported. With time left, it reports exactly the requested display names that still have a record. Every requested record left after a completed loop belongs to a process alive in every pass. When it finishes with time left, no requested record remains. |
| Store.Stop | src/main.rs:107-157 | `stop` signals only matching records, each once, and on success all of them. It deletes only records and logs of requested jobs. It deletes only records whose process one of its passes found dead, and each deleted record's job has no log file afterwards. It succeeds exactly when every name decodes. After a success, every requested record left belongs to a process alive in every pass, in particular the last. With time left, it reports exactly the requested display names that still have a record. An empty report with time left means no requested record remains. |
| Launch.Start | src/main.rs:159-199 | `start` only adds records and logs. A new log belongs to a requested job. A new or changed record is the named file of a parent-side launch, and holds that job's definition. |
| Launch.StartFailsExactly | src/main.rs:161-195 | `start` fails exactly when a fork fails in an iteration that the loop reaches, which means every earlier iteration still ran in the original process. |
| Launch.MasterGoesOn | src/main.rs:163-195 | When the original process sees a successful fork, it writes `<name>-<pid>` with the definition and goes on to the next job. |
| Launch.MasterLaunchesAll | src/main.rs:161-196 | If every fork succeeds in the original process, `start` succeeds. It leaves the logs alone and adds exactly one record file per job. |
| Launch.MasterKeepsOthers | src/main.rs:163-168 | Records that `start` does not write keep their definitions. |
| Launch.LaunchKeysDistinct | src/main.rs:164 | Launches with distinct child pids and dash-free names write distinct record files. |
| Launch.FirstKeyFresh | src/main.rs:164 | When all child pids differ and names are dash-free, no later launch writes the first record file again. |
| Launch.MasterRecordsHoldDefinitions | src/main.rs:163-168 | With distinct child pids, each job's record file holds that job's definition once `start` is done. |
| Launch.GuardEndsLoop | src/main.rs:191-195 | Once the current pid differs from the original one, the later jobs have no effect. |
| Launch.ChildWritesNoRecord | src/main.rs:170-172 | The detached child creates its job's log file, writes no record, and leaves the loop. |
| ConfigSearch.FindConfigDir | src/main.rs:274-286 | The result is the nearest ancestor of the current directory, the directory itself first, that holds `.worker.toml`. The result is none exactly when no ancestor up to the root holds it. |
| Lifecycle.StatusOfLive | src/main.rs:90-93 | When every record's process is alive, `status` deletes nothing and reports every record's display name. |
| Lifecycle.StatusIdempotent | src/main.rs:80-105 | A second `status`, over any listing, deletes nothing more and reports the same set. |
| Lifecycle.StartThenStatus | src/main.rs:92-93 | A job started by the original process, with its child alive, appears in the next `status` under its display name. |
| Lifecycle.StatusOfOneLiveJob | src/main.rs:92-93 | Live records that all belong to one job are reported as that job's name alone. |
| Lifecycle.TwoLiveRecordsReportOnce | src/main.rs:81 | Two live instances of one job are two records but one reported name. |
| Lifecycle.StartTwiceReportsOnce | src/main.rs:159-199 | Starting one job twice writes two records, and `status` reports the job once. |
| Lifecycle.SignalScanNone | src/main.rs:109-117 | When no listed record belongs to a requested job, nothing is signalled and the scan succeeds. |
| Lifecycle.TrailingDashMisdirectsStop | src/main.rs:109-116 | The record of job `web-` with pid 42 is not signalled by a `stop` of `web-`. A `stop` of job `web` signals it, as pid -42. |
| Lifecycle.StopWhenNothingRuns | src/main.rs:107-157 | `stop` of jobs with no record signals nothing, removes nothing and reports nothing. |
| Lifecycle.QuietPass | src/main.rs:125-147 | A pass that finds no requested record changes nothing and finishes. |
| Lifecycle.HonouredPass | src/main.rs:132-141 | A pass that finds every requested process gone finishes. It keeps exactly the other jobs' records, and removes the logs of the requested jobs that had a record. |
| Lifecycle.StopWhenAllHonour | src/main.rs:107-157 | If every requested process is gone at the first poll, `stop` succeeds and reports nothing. It leaves exactly the other jobs' records, and no log of a stopped job. |
| Lifecycle.FirstPassKeepsInvariant | src/main.rs:125-135 | After a completed pass, `finished` is set exactly when no live name is reported, and every reported name still has a record. |
| Lifecycle.PollLoopContinues | src/main.rs:145-148 | A pass that still sees a requested process alive is followed by the next pass. |
| Lifecycle.PollLoopStops | src/main.rs:145-147 | The loop ends right after a pass that fails or finds no requested process alive. |
| Lifecycle.FinishedOnceGone | src/main.rs:125-141 | A pass made after every requested process is gone completes and finds none alive. |
| Lifecycle.PollLoopHonoured | src/main.rs:119-148 | If every requested process is gone from some pass on, and that pass comes before the time runs out, the loop ends with a finished pass. |
| Lifecycle.StopWhenAllHonourInTime | src/main.rs:107-157 | If every requested process is gone from some pass before the timeout on, `stop` succeeds and reports nothing. It leaves no record of a requested job, and no log file of a requested job that had a record. |
| Lifecycle.StopReportsSurvivor | src/main.rs:133-153 | A requested process that stays alive through every pass keeps its record through `stop`. When `stop` succeeds with time to poll, the process's job is reported as not stopped. |

## Left out

- Record contents: reading and writing a record with `serde_json` (src/main.rs:86-88, 167-168) is a foreign library. Records are opaque `Project` values and always read back, so corrupt content is not modelled.
- Reading `.worker.toml` with `toml` (src/main.rs:219-223) is left out for the same reason. `Jobs.Lookup` starts from the parsed list of definitions.
- Input/output failures are not modelled: `read_dir`, `File::open`, `File::create`, `remove_file` and `current_dir`. The `No filename` and `Invalid unicode filename` cases of `parse_state_filename` are left out too. File names are strings and always have a last component.
- Starting the process is left out: `daemon()`, the `libc` module, `shlex::split`, the `parts[0]` indexing and `exec` (src/main.rs:162, 177-187). These are the operating system's and foreign code. Reading the current pid with `sysinfo::get_current_pid().unwrap()` (src/main.rs:160, 192) is left out too, including the panic of its `unwrap`. The pids are the parameters `master` and `Step.currentPid`. A fork outcome is given as a `Step`.
- `terminate` (src/main.rs:115) is left out. Its result is ignored by the source, so the model records only which files were signalled.
- `Store.Stop`: the 5-second timeout measured with `Instant` (src/main.rs:119-124) becomes a number of passes `fuel`, with one liveness oracle per pass. Wall-clock time is not modelled.
- `Store.Stop`: the passes after the first list the initial directory order with the deleted files dropped. This assumes `read_dir` lists the remaining files in an unchanged order.
- The `log` command and its follow loop (src/main.rs:35-65) are pure I/O.
- The command line, `main` and `restart` (src/main.rs:240-309) are dispatch only. `restart` is `stop` followed by `start` on the resulting directories.
- The `lazy_static` directory globals (src/main.rs:26-32) are not modelled. The directories are the two components of `Disk`.
- Concurrent invocations racing on the state directory are not modelled. The source takes no lock, so this would be concurrency.

=== FILE: configsearch.dfy ===
/**
 * `find_config_file`: the search from the current directory up through its
 * ancestors for the first directory holding `.worker.toml`.
 *
 * A path is the sequence of its components below the root, so the root is
 * `[]` and the parent of a path drops its last component. Whether a file
 * exists is an oracle over paths.
 */
module ConfigSearch {
  import opened Outcomes

  type Path = seq<string>

  const ConfigFile: string := ".worker.toml"

  /** The directory `dir` holds the configuration file. */
  predicate HasConfig(dir: Path, fileExists: Path -> bool) {
    fileExists(dir + [ConfigFile])
  }

  /**
   * The directories the search looks at, nearest first: `cwd` with its
   * last `k` components dropped, for `k` from 0 up to the root.
   */
  function Ancestor(cwd: Path, k: nat): Path
    requires k <= |cwd|
  {
    cwd[..|cwd| - k]
  }

  /**
   * The search: the nearest ancestor of `cwd` (itself first) that holds
   * the configuration file, or `None` once the root has been checked too.
   */
  method FindConfigDir(cwd: Path, fileExists: Path -> bool) returns (r: Option<Path>)
    ensures r.Some? ==> exists k :: 0 <= k <= |cwd| && r.value == Ancestor(cwd, k)
    ensures r.Some? ==> HasConfig(r.value, fileExists)
    ensures r.Some? ==> forall k :: 0 <= k <= |cwd| && |Ancestor(cwd, k)| > |r.value| ==> !HasConfig(Ancestor(cwd, k), fileExists)
    ensures r.None? <==> forall k :: 0 <= k <= |cwd| ==> !HasConfig(Ancestor(cwd, k), fileExists)
  {
    var dir := cwd;
    while true
      invariant |dir| <= |cwd| && dir == Ancestor(cwd, |cwd| - |dir|)
      invariant forall k :: 0 <= k < |cwd| - |dir| ==> !HasConfig(Ancestor(cwd, k), fileExists)
      decreases |dir|
    {
      if HasConfig(dir, fileExists) {
        return Some(dir);
      }
      if |dir| > 0 {
        dir := dir[..|dir| - 1];
      } else {
        return None;
      }
    }
  }
}

=== FILE: decimal.dfy ===
/**
 * Decimal text of 32-bit signed integers, as Rust prints an `i32` with `{}`
 * and reads one back with `str::parse::<i32>`.
 */
module Decimal {
  import opened Outcomes

  const I32_MIN: int := -0x8000_0000
  const I32_MAX: int := 0x7fff_ffff

  /** The values of Rust's `i32` (a process id is one). */
  type I32 = x: int | I32_MIN <= x <= I32_MAX

  predicate IsDigit(c: char) {
    '0' <= c <= '9'
  }

  predicate AllDigits(s: string) {
    forall i :: 0 <= i < |s| ==> IsDigit(s[i])
  }

  predicate IsSign(c: char) {
    c == '-' || c == '+'
  }

  function DigitChar(d: nat): (c: char)
    requires d < 10
    ensures IsDigit(c)
  {
    ('0' as int + d) as char
  }

  /** The number a run of decimal digits denotes, most significant digit first. */
  function ValueOf(s: string): nat
    requires AllDigits(s)
    decreases |s|
  {
    if |s| == 0 then 0
    else 10 * ValueOf(s[..|s| - 1]) + DigitValue(s[|s| - 1])
  }

  /** The shortest decimal text of `n`: at least one digit and no leading zero. */
  function Digits(n: nat): (s: string)
    ensures 1 <= |s| && AllDigits(s)
    ensures |s| > 1 ==> s[0] != '0'
    decreases n
  {
    if n < 10 then [DigitChar(n)] else Digits(n / 10) + [DigitChar(n % 10)]
  }

  /** How `format!("{}", n)` renders an integer: a minus sign for negatives, never a plus. */
  function Format(n: int): (s: string)
    ensures |s| >= 1
    ensures s[0] == '-' <==> n < 0
    ensures n >= 0 ==> AllDigits(s) && (|s| > 1 ==> s[0] != '0')
    ensures n < 0 ==> |s| >= 2 && AllDigits(s[1..]) && (|s| > 2 ==> s[1] != '0')
  {
    if n < 0 then "-" + Digits(-n) else Digits(n)
  }

  function DigitValue(c: char): nat
    requires IsDigit(c)
  {
    c as int - '0' as int
  }

  /**
   * The number a run of ASCII digits denotes, read left to right as Rust's
   * integer parser does; `None` when the run is empty or holds any other
   * character.
   */
  function DigitRun(s: string): (r: Option<nat>)
    decreases |s|
  {
    if |s| == 0 || !IsDigit(s[|s| - 1]) then None
    else if |s| == 1 then Some(DigitValue(s[0]))
    else
      match DigitRun(s[..|s| - 1])
      case None => None
      case Some(v) => Some(10 * v + DigitValue(s[|s| - 1]))
  }

  /**
   * `str::parse::<i32>`: an optional leading `+` or `-`, then one or more
   * ASCII digits, whose value must fit in 32 bits; anything else is an error.
   */
  function Parse(s: string): (r: Option<I32>)
    ensures r.Some? ==> |s| >= 1
    ensures r.Some? && r.value < 0 ==> s[0] == '-'
  {
    if |s| == 0 then None
    else
      match DigitRun(if IsSign(s[0]) then s[1..] else s)
      case None => None
      case Some(m) =>
        var v: int := if s[0] == '-' then -(m as int) else m;
        if I32_MIN <= v <= I32_MAX then Some(v) else None
  }

  /** A digit run is read exactly when it is nonempty and all digits, and then denotes its value. */
  lemma {:induction false} DigitRunValue(s: string)
    ensures DigitRun(s) == if |s| >= 1 && AllDigits(s) then Some(ValueOf(s)) else None
    decreases |s|
  {
    if |s| >= 2 {
      DigitRunValue(s[..|s| - 1]);
      if !AllDigits(s[..|s| - 1]) {
        var i :| 0 <= i < |s| - 1 && !IsDigit(s[..|s| - 1][i]);
        assert !IsDigit(s[i]);
      }
    } else if |s| == 1 {
      assert s[..0] == [];
    }
  }

  lemma {:induction false} ValueOfDigits(n: nat)
    ensures ValueOf(Digits(n)) == n
    decreases n
  {
    if n >= 10 {
      var s := Digits(n);
      assert s[..|s| - 1] == Digits(n / 10);
      ValueOfDigits(n / 10);
    }
  }

  /** Every 32-bit integer reads back from its own decimal text. */
  lemma ParseFormat(n: I32)
    ensures Parse(Format(n)) == Some(n)
  {
    var m: nat := if n < 0 then -(n as int) else n;
    ValueOfDigits(m);
    DigitRunValue(Digits(m));
    if n < 0 {
      assert Format(n)[1..] == Digits(m);
    }
  }

  /** `s` without its leading sign, if it has one. */
  function Magnitude(s: string): string
    requires |s| >= 1
  {
    if IsSign(s[0]) then s[1..] else s
  }

  /** The value a sign and a digit run denote together. */
  function SignedValue(s: string): int
    requires |s| >= 1 && AllDigits(Magnitude(s))
  {
    if s[0] == '-' then -(ValueOf(Magnitude(s)) as int) else ValueOf(Magnitude(s))
  }

  /** Text that is an optional sign and then one or more digits is read as the signed value, when it fits. */
  lemma ParseAccepts(s: string)
    requires |s| >= 1 && |Magnitude(s)| >= 1 && AllDigits(Magnitude(s))
    requires I32_MIN <= SignedValue(s) <= I32_MAX
    ensures Parse(s) == Some(SignedValue(s))
  {
    DigitRunValue(Magnitude(s));
  }

  /**
   * The error cases of parsing: empty text, a sign with no digits, any
   * character other than a digit (a single leading sign aside), and a value
   * that does not fit in 32 bits.
   */
  lemma ParseRejects(s: string)
    ensures |s| == 0 ==> Parse(s).None?
    ensures |s| == 1 && IsSign(s[0]) ==> Parse(s).None?
    ensures (exists i :: 0 <= i < |s| && !IsDigit(s[i]) && !(i == 0 && IsSign(s[i]))) ==> Parse(s).None?
    ensures |s| >= 1 && AllDigits(Magnitude(s)) && !(I32_MIN <= SignedValue(s) <= I32_MAX) ==> Parse(s).None?
  {
    if |s| >= 1 {
      DigitRunValue(Magnitude(s));
      if exists i :: 0 <= i < |s| && !IsDigit(s[i]) && !(i == 0 && IsSign(s[i])) {
        var i :| 0 <= i < |s| && !IsDigit(s[i]) && !(i == 0 && IsSign(s[i]));
        if IsSign(s[0]) {
          assert !IsDigit(Magnitude(s)[i - 1]);
        } else {
          assert !IsDigit(Magnitude(s)[i]);
        }
      }
    }
  }

  /** Parsing accepts an explicit plus sign and leading zeros, so distinct texts share a value. */
  lemma ParseIsNotCanonical()
    ensures Parse("+7") == Some(7)
    ensures Parse("007") == Some(7)
    ensures Parse("-0") == Some(0)
    ensures Parse("-2147483648") == Some(I32_MIN)
    ensures Parse("2147483648").None?
  {
    assert DigitRun("7") == Some(7);
    assert "+7"[1..] == "7";
    assert DigitRun("0") == Some(0);
    assert "-0"[1..] == "0";
    assert DigitRun("00") == Some(0) by { assert "00"[..1] == "0"; }
    assert DigitRun("007") == Some(7) by { assert "007"[..2] == "00"; }
    assert DigitRun("21") == Some(21) by { assert "21"[..1] == "2"; }
    assert DigitRun("214") == Some(214) by { assert "214"[..2] == "21"; }
    assert DigitRun("2147") == Some(2147) by { assert "2147"[..3] == "214"; }
    assert DigitRun("21474") == Some(21474) by { assert "21474"[..4] == "2147"; }
    assert DigitRun("214748") == Some(214748) by { assert "214748"[..5] == "21474"; }
    assert DigitRun("2147483") == Some(2147483) by { assert "2147483"[..6] == "214748"; }
    assert DigitRun("21474836") == Some(21474836) by { assert "21474836"[..7] == "2147483"; }
    assert DigitRun("214748364") == Some(214748364) by { assert "214748364"[..8] == "21474836"; }
    assert DigitRun("2147483648") == Some(2147483648) by { assert "2147483648"[..9] == "214748364"; }
    assert "-2147483648"[1..] == "2147483648";
  }
}

=== FILE: jobs.dfy ===
/**
 * Job definitions as the configuration file supplies them, the name a job
 * is shown under, and the first-match lookup by job name.
 */
module Jobs {
  import opened Outcomes

  /** One `[[project]]` entry of the configuration (also the content of a state record). */
  datatype Project = Project(
    name: string,
    command: string,
    cwd: string,
    display: Option<string>,
    envs: Option<map<string, string>>)

  /** The name a job is reported under: its display name, else its job name. */
  function DisplayName(p: Project): string {
    p.display.GetOr(p.name)
  }

  /** Index of the first definition called `name`, or `|ps|` when none is. */
  function FirstNamed(ps: seq<Project>, name: string): (i: nat)
    ensures i <= |ps|
    ensures i < |ps| ==> ps[i].name == name
    ensures forall j :: 0 <= j < i ==> ps[j].name != name
    decreases |ps|
  {
    if |ps| == 0 then 0
    else if ps[0].name == name then 0
    else 1 + FirstNamed(ps[1..], name)
  }

  /** `iter().find(|p| p.name == name)`: the first definition with that job name. */
  function FindByName(ps: seq<Project>, name: string): (r: Option<Project>)
    ensures r.Some? ==> r.value in ps && r.value.name == name
    ensures r.None? <==> forall j :: 0 <= j < |ps| ==> ps[j].name != name
  {
    var i := FirstNamed(ps, name);
    if i < |ps| then Some(ps[i]) else None
  }

  /** The job names of `ps`, in order (the "Valid projects are ..." list). */
  function Names(ps: seq<Project>): (ns: seq<string>)
    ensures |ns| == |ps|
    ensures forall j :: 0 <= j < |ps| ==> ns[j] == ps[j].name
  {
    seq(|ps|, j requires 0 <= j < |ps| => ps[j].name)
  }

  /**
   * `Project::from_str`: resolves a job name given on the command line to
   * the first configuration entry of that name, or fails with the list of
   * valid job names.
   */
  function Lookup(config: seq<Project>, s: string): (r: Result<Project, seq<string>>)
    ensures r.Ok? ==> r.value in config && r.value.name == s
    ensures r.Err? <==> s !in Names(config)
    ensures r.Err? ==> r.error == Names(config)
    ensures forall i :: 0 <= i < |config| && config[i].name == s && (forall j :: 0 <= j < i ==> config[j].name != s) ==>
      r == Ok(config[i])
  {
    match FindByName(config, s)
    case Some(p) => Ok(p)
    case None => Err(Names(config))
  }

  /** When several entries share a name, the earliest one is found. */
  lemma FindByNameIsFirst(ps: seq<Project>, name: string, i: nat)
    requires i < |ps| && ps[i].name == name
    requires forall j :: 0 <= j < i ==> ps[j].name != name
    ensures FindByName(ps, name) == Some(ps[i])
  {
    var k := FirstNamed(ps, name);
    if k < i {
      assert ps[k].name == name;
    }
  }
}

=== FILE: launch.dfy ===
/**
 * The bookkeeping of `start`: for each requested job the process forks a
 * detached child; the parent side writes the state record `<name>-<pid>`,
 * the child side creates the job's log file, and only a process whose pid
 * is still the original one goes on to the next job.
 *
 * Forking, exec and reading the current pid are the operating system's;
 * here each loop iteration is given as a `Step`: what `daemon()` returned
 * in this process and the pid the process then reads as its own.
 */
module Launch {
  import opened Outcomes
  import opened Decimal
  import opened StateFile
  import opened Jobs
  import opened Store

  /** What `daemon()` returned to the process running the loop. */
  datatype Daemon =
    | Parent(child: I32)      // this is the original side; `child` is the detached process
    | Child                   // this is the detached process itself
    | Failed(errno: int)      // the fork did not happen

  datatype Step = Step(daemon: Daemon, currentPid: int)

  /** "Error: ... on daemon: ...": the fork for `project` failed. */
  datatype LaunchError = DaemonError(errno: int, project: Project)

  /** One iteration's effect on the directories, before the guard. */
  function Launched(disk: Disk, project: Project, d: Daemon): Disk
  {
    match d
    case Parent(pid) => disk.(records := disk.records[Encode(project.name, pid) := project])
    case Child => disk.(logs := disk.logs + {project.name})
    case Failed(_) => disk
  }

  /**
   * The fork of iteration `k` fails, and every earlier iteration ran in the
   * original process, so the loop reaches it.
   */
  predicate FailsFirst(steps: seq<Step>, master: int, k: nat)
    requires k < |steps|
  {
    steps[k].daemon.Failed? && forall j :: 0 <= j < k ==> steps[j].currentPid == master
  }

  /**
   * When the first fork succeeds, a later failure is reached exactly when
   * the first iteration ran in the original process and the failure is
   * reached from the second iteration on.
   */
  lemma FailsFirstLater(steps: seq<Step>, master: int)
    requires |steps| > 0 && !steps[0].daemon.Failed?
    ensures (exists k :: 0 <= k < |steps| && FailsFirst(steps, master, k)) <==>
      steps[0].currentPid == master && exists k :: 0 <= k < |steps| - 1 && FailsFirst(steps[1..], master, k)
  {
    if exists k :: 0 <= k < |steps| && FailsFirst(steps, master, k) {
      var k :| 0 <= k < |steps| && FailsFirst(steps, master, k);
      assert k > 0 && steps[0].currentPid == master;
      assert FailsFirst(steps[1..], master, k - 1);
    }
    if steps[0].currentPid == master && exists k :: 0 <= k < |steps| - 1 && FailsFirst(steps[1..], master, k) {
      var k :| 0 <= k < |steps| - 1 && FailsFirst(steps[1..], master, k);
      assert forall j :: 1 <= j < k + 1 ==> steps[j] == steps[1..][j - 1];
      assert FailsFirst(steps, master, k + 1);
    }
  }

  /**
   * The loop of `start` over `projects`, with `steps[k]` the outcome of the
   * `k`-th iteration in this process and `master` the pid read before the
   * loop. A failed fork ends it with an error; otherwise it goes on while
   * the current pid is still `master`.
   */
  function Start(disk: Disk, projects: seq<Project>, steps: seq<Step>, master: int): (r: Run<(), LaunchError>)
    requires |steps| == |projects|
    ensures disk.records.Keys <= r.disk.records.Keys
    ensures disk.logs <= r.disk.logs
    ensures forall n :: n in r.disk.logs && n !in disk.logs ==> exists i :: 0 <= i < |projects| && projects[i].name == n
    ensures forall f :: f in r.disk.records && (f !in disk.records || r.disk.records[f] != disk.records[f]) ==>
      exists i :: 0 <= i < |projects| && steps[i].daemon.Parent? && f == Encode(projects[i].name, steps[i].daemon.child)
        && r.disk.records[f] == projects[i]
    decreases |projects|
  {
    if |projects| == 0 then Run(disk, Ok(()))
    else
      var p := projects[0];
      var s := steps[0];
      if s.daemon.Failed? then Run(disk, Err(DaemonError(s.daemon.errno, p)))
      else
        var next := Launched(disk, p, s.daemon);
        if s.currentPid != master then Run(next, Ok(()))
        else
          var r := Start(next, projects[1..], steps[1..], master);
          assert forall i :: 0 <= i < |projects| - 1 ==> projects[1..][i] == projects[i + 1] && steps[1..][i] == steps[i + 1];
          r
  }

  /**
   * `start` fails exactly when some fork fails in an iteration the loop
   * reaches, that is, one after which no earlier iteration had left the
   * original process.
   */
  lemma {:induction false} StartFailsExactly(disk: Disk, projects: seq<Project>, steps: seq<Step>, master: int)
    requires |steps| == |projects|
    ensures Start(disk, projects, steps, master).result.Err? <==>
      exists k :: 0 <= k < |steps| && FailsFirst(steps, master, k)
    decreases |projects|
  {
    if |projects| > 0 {
      var s := steps[0];
      if s.daemon.Failed? {
        assert FailsFirst(steps, master, 0);
      } else {
        FailsFirstLater(steps, master);
        if s.currentPid == master {
          StartFailsExactly(Launched(disk, projects[0], s.daemon), projects[1..], steps[1..], master);
        }
      }
    }
  }

  /** An iteration in which the original process sees a successful fork writes its record and goes on to the rest. */
  lemma MasterGoesOn(disk: Disk, projects: seq<Project>, steps: seq<Step>, master: int, child: I32)
    requires |steps| == |projects| > 0
    requires steps[0] == Step(Parent(child), master)
    ensures Start(disk, projects, steps, master) ==
      Start(disk.(records := disk.records[Encode(projects[0].name, child) := projects[0]]), projects[1..], steps[1..], master)
  {
  }

  /** Every iteration of `steps` is the original process seeing a successful fork. */
  predicate AllParent(steps: seq<Step>, master: int) {
    forall k :: 0 <= k < |steps| ==> steps[k].daemon.Parent? && steps[k].currentPid == master
  }

  /** The record file the `i`-th launch writes. */
  function KeyOf(projects: seq<Project>, steps: seq<Step>, i: nat): string
    requires i < |projects| == |steps| && steps[i].daemon.Parent?
  {
    Encode(projects[i].name, steps[i].daemon.child)
  }

  /** The set of record files written by a run of launches, split into the first and the rest. */
  function LaunchKeys(projects: seq<Project>, steps: seq<Step>): set<string>
    requires |projects| == |steps|
    requires forall k :: 0 <= k < |steps| ==> steps[k].daemon.Parent?
  {
    set i | 0 <= i < |projects| :: KeyOf(projects, steps, i)
  }

  lemma LaunchKeysCons(projects: seq<Project>, steps: seq<Step>)
    requires |projects| == |steps| >= 1
    requires forall k :: 0 <= k < |steps| ==> steps[k].daemon.Parent?
    ensures forall i :: 0 <= i < |projects| - 1 ==> KeyOf(projects[1..], steps[1..], i) == KeyOf(projects, steps, i + 1)
    ensures LaunchKeys(projects, steps) == LaunchKeys(projects[1..], steps[1..]) + {KeyOf(projects, steps, 0)}
  {
    var ps, ss := projects[1..], steps[1..];
    forall f | f in LaunchKeys(projects, steps) ensures f in LaunchKeys(ps, ss) + {KeyOf(projects, steps, 0)} {
      var i :| 0 <= i < |projects| && f == KeyOf(projects, steps, i);
      if i > 0 { assert f == KeyOf(ps, ss, i - 1); }
    }
    forall f | f in LaunchKeys(ps, ss) ensures f in LaunchKeys(projects, steps) {
      var i :| 0 <= i < |ps| && f == KeyOf(ps, ss, i);
      assert f == KeyOf(projects, steps, i + 1);
    }
  }

  /** Launches of dash-free job names with distinct child pids write distinct record files. */
  lemma LaunchKeysDistinct(projects: seq<Project>, steps: seq<Step>, i: nat, j: nat)
    requires |projects| == |steps|
    requires forall k :: 0 <= k < |steps| ==> steps[k].daemon.Parent?
    requires forall k :: 0 <= k < |projects| ==> Separator !in projects[k].name
    requires i < j < |steps| && steps[i].daemon.child != steps[j].daemon.child
    ensures KeyOf(projects, steps, i) != KeyOf(projects, steps, j)
  {
    if KeyOf(projects, steps, i) == KeyOf(projects, steps, j) {
      EncodeInjective(projects[i].name, steps[i].daemon.child, projects[j].name, steps[j].daemon.child);
    }
  }

  /**
   * In the original process, `start` launches every requested job: it
   * succeeds, writes one record per job keyed by the job's name and its
   * child's pid, and creates no log file (those are the children's).
   * Starting a job that already runs simply adds another record.
   */
  lemma {:induction false} MasterLaunchesAll(disk: Disk, projects: seq<Project>, steps: seq<Step>, master: int)
    requires |steps| == |projects|
    requires AllParent(steps, master)
    ensures var r := Start(disk, projects, steps, master);
      && r.result.Ok?
      && r.disk.logs == disk.logs
      && r.disk.records.Keys == disk.records.Keys + LaunchKeys(projects, steps)
    decreases |projects|
  {
    if |projects| > 0 {
      MasterLaunchesAll(Launched(disk, projects[0], steps[0].daemon), projects[1..], steps[1..], master);
      LaunchKeysCons(projects, steps);
    }
  }

  /** Records whose file name no launch writes keep their content. */
  lemma {:induction false} MasterKeepsOthers(disk: Disk, projects: seq<Project>, steps: seq<Step>, master: int, f: string)
    requires |steps| == |projects|
    requires AllParent(steps, master)
    requires f in disk.records && f !in LaunchKeys(projects, steps)
    ensures f in Start(disk, projects, steps, master).disk.records
    ensures Start(disk, projects, steps, master).disk.records[f] == disk.records[f]
    decreases |projects|
  {
    if |projects| > 0 {
      LaunchKeysCons(projects, steps);
      MasterKeepsOthers(Launched(disk, projects[0], steps[0].daemon), projects[1..], steps[1..], master, f);
    }
  }

  /** The first launch's record file is not written again by the later launches. */
  lemma FirstKeyFresh(projects: seq<Project>, steps: seq<Step>)
    requires |projects| == |steps| >= 1
    requires forall k :: 0 <= k < |steps| ==> steps[k].daemon.Parent?
    requires forall i :: 0 <= i < |projects| ==> Separator !in projects[i].name
    requires forall i, j :: 0 <= i < j < |steps| ==> steps[i].daemon.child != steps[j].daemon.child
    ensures KeyOf(projects, steps, 0) !in LaunchKeys(projects[1..], steps[1..])
  {
    var ps, ss := projects[1..], steps[1..];
    forall j | 0 <= j < |ps| ensures KeyOf(ps, ss, j) != KeyOf(projects, steps, 0) {
      LaterKeyDiffers(projects, steps, j);
    }
  }

  /** The record file of the launch after `j` is not that of the first launch. */
  lemma LaterKeyDiffers(projects: seq<Project>, steps: seq<Step>, j: nat)
    requires |projects| == |steps| && j + 1 < |steps|
    requires forall k :: 0 <= k < |steps| ==> steps[k].daemon.Parent?
    requires forall i :: 0 <= i < |projects| ==> Separator !in projects[i].name
    requires forall i, j :: 0 <= i < j < |steps| ==> steps[i].daemon.child != steps[j].daemon.child
    ensures KeyOf(projects[1..], steps[1..], j) != KeyOf(projects, steps, 0)
  {
    assert projects[1..][j] == projects[j + 1] && steps[1..][j] == steps[j + 1];
    LaunchKeysDistinct(projects, steps, 0, j + 1);
  }

  /**
   * Each record the original process writes holds the definition of the
   * job it was launched for, provided job names have no dash and the
   * children's pids are distinct.
   */
  lemma {:induction false} MasterRecordsHoldDefinitions(disk: Disk, projects: seq<Project>, steps: seq<Step>, master: int)
    requires |steps| == |projects|
    requires AllParent(steps, master)
    requires forall i :: 0 <= i < |projects| ==> Separator !in projects[i].name
    requires forall i, j :: 0 <= i < j < |steps| ==> steps[i].daemon.child != steps[j].daemon.child
    ensures forall i :: 0 <= i < |projects| ==>
      KeyOf(projects, steps, i) in Start(disk, projects, steps, master).disk.records &&
      Start(disk, projects, steps, master).disk.records[KeyOf(projects, steps, i)] == projects[i]
    decreases |projects|
  {
    if |projects| > 0 {
      var ps, ss := projects[1..], steps[1..];
      var next := Launched(disk, projects[0], steps[0].daemon);
      var r := Start(next, ps, ss, master);
      assert Start(disk, projects, steps, master) == r;
      MasterRecordsHoldDefinitions(next, ps, ss, master);
      FirstKeyFresh(projects, steps);
      MasterKeepsOthers(next, ps, ss, master, KeyOf(projects, steps, 0));
      LaunchKeysCons(projects, steps);
      forall i | 1 <= i < |projects|
        ensures KeyOf(projects, steps, i) in r.disk.records && r.disk.records[KeyOf(projects, steps, i)] == projects[i]
      {
        assert KeyOf(projects, steps, i) == KeyOf(ps, ss, i - 1);
      }
    }
  }

  /**
   * The guard: once an iteration leaves a process whose pid is not the
   * original one (the detached child), that process launches nothing more;
   * the loop's effect is that of the jobs up to and including this one.
   */
  lemma {:induction false} GuardEndsLoop(disk: Disk, projects: seq<Project>, steps: seq<Step>, master: int, k: nat)
    requires |steps| == |projects|
    requires k < |projects| && steps[k].currentPid != master
    ensures Start(disk, projects, steps, master) == Start(disk, projects[..k + 1], steps[..k + 1], master)
    decreases k
  {
    if k > 0 && !steps[0].daemon.Failed? && steps[0].currentPid == master {
      var next := Launched(disk, projects[0], steps[0].daemon);
      GuardEndsLoop(next, projects[1..], steps[1..], master, k - 1);
      assert projects[1..][..k] == projects[..k + 1][1..];
      assert steps[1..][..k] == steps[..k + 1][1..];
    }
  }

  /** The detached child writes no state record: it only creates its job's log file. */
  lemma ChildWritesNoRecord(disk: Disk, projects: seq<Project>, steps: seq<Step>, master: int)
    requires |steps| == |projects| >= 1
    requires steps[0] == Step(Child, steps[0].currentPid) && steps[0].currentPid != master
    ensures Start(disk, projects, steps, master) == Run(Disk(disk.records, disk.logs + {projects[0].name}), Ok(()))
  {
  }
}

=== FILE: lifecycle.dfy ===
/**
 * How the commands compose: `status` after `status`, `status` after
 * `start`, and `stop` when nothing of the requested jobs runs or when
 * every requested process honours the termination request.
 */
module Lifecycle {
  import opened Outcomes
  import opened Decimal
  import opened StateFile
  import opened Jobs
  import opened Store
  import opened Launch

  /** Every file name in the state directory decodes. */
  predicate WellNamed(records: Records) {
    forall f :: f in records ==> Decode(f).Ok?
  }

  /** `status` over live records only deletes nothing and reports every record's display name. */
  lemma StatusOfLive(disk: Disk, listing: seq<string>, alive: int -> bool)
    requires IsListing(listing, disk.records)
    requires forall f :: f in disk.records ==> LiveFile(f, alive)
    ensures Status(disk, listing, alive) == Run(disk, Ok(set f | f in disk.records :: DisplayName(disk.records[f])))
  {
    var s := Status(disk, listing, alive);
    assert s.result.Ok?;
    assert s.disk.records == disk.records;
    assert s.result.value == set f | f in disk.records :: DisplayName(disk.records[f]) by {
      forall x | x in set f | f in disk.records :: DisplayName(disk.records[f])
        ensures x in s.result.value
      {
        var f :| f in disk.records && DisplayName(disk.records[f]) == x;
        assert LiveFile(f, alive);
      }
    }
  }

  /**
   * A second `status` finds nothing more to delete and reports the same
   * names: the first one already removed every stale record, and removed
   * records do not come back.
   */
  lemma StatusIdempotent(disk: Disk, listing: seq<string>, alive: int -> bool, relisting: seq<string>)
    requires IsListing(listing, disk.records)
    requires Status(disk, listing, alive).result.Ok?
    requires IsListing(relisting, Status(disk, listing, alive).disk.records)
    ensures Status(Status(disk, listing, alive).disk, relisting, alive) == Status(disk, listing, alive)
  {
    var r := Status(disk, listing, alive);
    assert forall f :: f in r.disk.records ==> LiveFile(f, alive) && r.disk.records[f] == disk.records[f];
    StatusOfLive(r.disk, relisting, alive);
    assert (set f | f in r.disk.records :: DisplayName(r.disk.records[f])) == r.result.value by {
      forall x | x in r.result.value
        ensures x in set f | f in r.disk.records :: DisplayName(r.disk.records[f])
      {
        var f :| f in disk.records && LiveFile(f, alive) && DisplayName(disk.records[f]) == x;
        assert f in r.disk.records;
      }
    }
  }

  /**
   * A job started by the original process, whose child is alive, is
   * reported by the next `status` under its display name (or its name).
   */
  lemma StartThenStatus(disk: Disk, p: Project, child: I32, master: int, listing: seq<string>, alive: int -> bool)
    requires WellNamed(disk.records)
    requires Separator !in p.name && alive(child)
    requires IsListing(listing, Start(disk, [p], [Step(Parent(child), master)], master).disk.records)
    ensures var started := Start(disk, [p], [Step(Parent(child), master)], master).disk;
      var s := Status(started, listing, alive);
      s.result.Ok? && DisplayName(p) in s.result.value
  {
    var started := Start(disk, [p], [Step(Parent(child), master)], master).disk;
    var f := Encode(p.name, child);
    assert started.records == disk.records[f := p] by {
      MasterGoesOn(disk, [p], [Step(Parent(child), master)], master, child);
    }
    assert WellNamed(started.records) && LiveFile(f, alive) by {
      RoundTrip(p.name, child);
    }
    var s := Status(started, listing, alive);
    assert DisplayName(started.records[f]) in s.result.value;
  }

  /** When every record is a live process of one job `p`, `status` keeps them all and reports that job's name alone. */
  lemma StatusOfOneLiveJob(disk: Disk, listing: seq<string>, alive: int -> bool, p: Project, some: string)
    requires IsListing(listing, disk.records)
    requires some in disk.records
    requires forall f :: f in disk.records ==> LiveFile(f, alive) && disk.records[f] == p
    ensures Status(disk, listing, alive) == Run(disk, Ok({DisplayName(p)}))
  {
    var s := Status(disk, listing, alive);
    assert s.result.Ok?;
    assert s.disk.records == disk.records;
    assert s.result.value == {DisplayName(p)} by {
      assert DisplayName(disk.records[some]) in s.result.value;
      forall x | x in s.result.value
        ensures x == DisplayName(p)
      {
        var f :| f in disk.records && LiveFile(f, alive) && DisplayName(disk.records[f]) == x;
      }
    }
  }

  /** Two live records of one job, under two pids, are reported as one name. */
  lemma TwoLiveRecordsReportOnce(p: Project, c1: I32, c2: I32, listing: seq<string>, alive: int -> bool)
    requires Separator !in p.name && c1 != c2 && alive(c1) && alive(c2)
    requires IsListing(listing, map[Encode(p.name, c1) := p][Encode(p.name, c2) := p])
    ensures |map[Encode(p.name, c1) := p][Encode(p.name, c2) := p]| == 2
    ensures Status(Disk(map[Encode(p.name, c1) := p][Encode(p.name, c2) := p], {}), listing, alive).result == Ok({DisplayName(p)})
  {
    var f1, f2 := Encode(p.name, c1), Encode(p.name, c2);
    var records := map[f1 := p][f2 := p];
    assert |records| == 2 by {
      if f1 == f2 {
        EncodeInjective(p.name, c1, p.name, c2);
      }
    }
    forall f | f in records
      ensures LiveFile(f, alive) && records[f] == p
    {
      if f == f1 {
        RoundTrip(p.name, c1);
      } else {
        RoundTrip(p.name, c2);
      }
    }
    StatusOfOneLiveJob(Disk(records, {}), listing, alive, p, f1);
  }

  /**
   * Starting one job twice gives two records, one per child, and `status`
   * reports the job once: the report is a set of display names.
   */
  lemma StartTwiceReportsOnce(p: Project, c1: I32, c2: I32, master: int, listing: seq<string>, alive: int -> bool)
    requires Separator !in p.name && c1 != c2 && alive(c1) && alive(c2)
    requires IsListing(listing, Start(Disk(map[], {}), [p, p], [Step(Parent(c1), master), Step(Parent(c2), master)], master).disk.records)
    ensures var started := Start(Disk(map[], {}), [p, p], [Step(Parent(c1), master), Step(Parent(c2), master)], master).disk;
      && |started.records| == 2
      && Status(started, listing, alive).result == Ok({DisplayName(p)})
  {
    var projects := [p, p];
    var steps := [Step(Parent(c1), master), Step(Parent(c2), master)];
    var f1 := Encode(p.name, c1);
    MasterGoesOn(Disk(map[], {}), projects, steps, master, c1);
    assert projects[1..] == [p] && steps[1..] == [Step(Parent(c2), master)];
    MasterGoesOn(Disk(map[f1 := p], {}), [p], [Step(Parent(c2), master)], master, c2);
    TwoLiveRecordsReportOnce(p, c1, c2, listing, alive);
  }

  /** No process is signalled when no listed record belongs to a requested job. */
  lemma {:induction false} SignalScanNone(listing: seq<string>, requested: seq<Project>)
    requires forall i :: 0 <= i < |listing| ==> Decode(listing[i]).Ok? && !Matches(listing[i], requested)
    ensures SignalScan(listing, requested) == Signals([], None)
    decreases |listing|
  {
    if |listing| > 0 {
      SignalScanNone(listing[1..], requested);
    }
  }

  /**
   * The record of job `web-` started as process 42 is not found by a
   * `stop` of `web-`, while a `stop` of an unrelated job `web` signals it,
   * as process -42.
   */
  lemma TrailingDashMisdirectsStop(p: Project, q: Project)
    requires p.name == "web-" && q.name == "web"
    ensures var f := Encode(p.name, 42);
      && SignalScan([f], [p]) == Signals([], None)
      && SignalScan([f], [q]) == Signals([f], None)
      && Decode(f).value.pid == -42
  {
    var f := Encode(p.name, 42);
    TrailingDashMisreads();
    assert FindByName([p], "web").None? by {
      assert [p][0].name != "web";
    }
    assert FindByName([q], "web") == Some(q) by {
      FindByNameIsFirst([q], "web", 0);
    }
    assert [f][1..] == [];
  }

  /** `stop` of jobs that have no record is a successful no-op: nothing signalled, removed or reported. */
  lemma StopWhenNothingRuns(disk: Disk, order: seq<string>, requested: seq<Project>, alive: nat -> int -> bool, fuel: nat)
    requires IsListing(order, disk.records)
    requires WellNamed(disk.records)
    requires forall f :: f in disk.records ==> !Matches(f, requested)
    ensures Stop(disk, order, requested, alive, fuel) == StopRun(disk, [], Ok({}))
  {
    SignalScanNone(order, requested);
    if fuel > 0 {
      QuietPass(disk, Present(order, disk.records), requested, alive(0));
      PollLoopStops(disk, order, requested, alive, 0, fuel, Pass({}, true));
    }
  }

  /** A poll over records none of which belongs to a requested job changes nothing and finishes. */
  lemma QuietPass(disk: Disk, listing: seq<string>, requested: seq<Project>, alive: int -> bool)
    requires ListsSome(listing, disk.records)
    requires WellNamed(disk.records)
    requires forall f :: f in disk.records ==> !Matches(f, requested)
    ensures PollPass(disk, listing, requested, alive) == Run(disk, Ok(Pass({}, true)))
  {
    var p := PollPass(disk, listing, requested, alive);
    assert p.result == Ok(Pass({}, true)) by {
      assert forall i :: 0 <= i < |listing| ==> listing[i] in disk.records;
      LiveNamesEmpty(listing, requested, alive);
    }
    assert p.disk.records == disk.records by {
      PollPassRecords(disk, listing, requested, alive);
    }
    assert p.disk.logs == disk.logs by {
      PollPassLogs(disk, listing, requested, alive);
      assert DeadNames(listing, requested, alive) == {};
    }
  }

  /** Under liveness `alive`, the process of every requested record in `records` is gone. */
  predicate GoneAt(records: Records, requested: seq<Project>, alive: int -> bool) {
    forall f :: f in records && Matches(f, requested) ==> !alive(Decode(f).value.pid)
  }

  /**
   * A poll that finds every requested process gone finishes, keeps exactly
   * the records of other jobs and removes the log files of the requested
   * jobs that had a record.
   */
  lemma HonouredPass(disk: Disk, listing: seq<string>, requested: seq<Project>, alive: int -> bool)
    requires ListsSome(listing, disk.records) && forall f :: f in disk.records ==> f in listing
    requires WellNamed(disk.records)
    requires GoneAt(disk.records, requested, alive)
    ensures var p := PollPass(disk, listing, requested, alive);
      && p.result.Ok? && p.result.value.finished
      && p.disk.records == (map f | f in disk.records && !Matches(f, requested) :: disk.records[f])
      && forall f :: f in disk.records && Matches(f, requested) ==> Decode(f).value.name !in p.disk.logs
  {
    HonouredPassFinishes(disk, listing, requested, alive);
    HonouredPassRecords(disk, listing, requested, alive);
    HonouredPassLogs(disk, listing, requested, alive);
  }

  /** A poll that finds every requested process gone keeps exactly the records of other jobs. */
  lemma HonouredPassRecords(disk: Disk, listing: seq<string>, requested: seq<Project>, alive: int -> bool)
    requires ListsSome(listing, disk.records) && forall f :: f in disk.records ==> f in listing
    requires WellNamed(disk.records)
    requires GoneAt(disk.records, requested, alive)
    ensures PollPass(disk, listing, requested, alive).disk.records ==
      (map f | f in disk.records && !Matches(f, requested) :: disk.records[f])
  {
    PollPassRecords(disk, listing, requested, alive);
  }

  /** A poll that finds every requested process gone completes and reports nothing alive. */
  lemma HonouredPassFinishes(disk: Disk, listing: seq<string>, requested: seq<Project>, alive: int -> bool)
    requires ListsSome(listing, disk.records)
    requires WellNamed(disk.records)
    requires GoneAt(disk.records, requested, alive)
    ensures PollPass(disk, listing, requested, alive).result.Ok?
    ensures PollPass(disk, listing, requested, alive).result.value.finished
  {
    assert forall i :: 0 <= i < |listing| ==> listing[i] in disk.records;
    assert forall f :: f in listing ==> !LiveMatch(f, requested, alive);
  }

  /** A poll that finds every requested process gone removes the log file of every requested job that had a record. */
  lemma HonouredPassLogs(disk: Disk, listing: seq<string>, requested: seq<Project>, alive: int -> bool)
    requires ListsSome(listing, disk.records) && forall f :: f in disk.records ==> f in listing
    requires WellNamed(disk.records)
    requires GoneAt(disk.records, requested, alive)
    ensures forall f :: f in disk.records && Matches(f, requested) ==>
      Decode(f).value.name !in PollPass(disk, listing, requested, alive).disk.logs
  {
    PollPassLogs(disk, listing, requested, alive);
    forall f | f in disk.records && Matches(f, requested)
      ensures Decode(f).value.name !in PollPass(disk, listing, requested, alive).disk.logs
    {
      assert DeadMatch(f, requested, alive);
    }
  }

  /**
   * When every requested process is gone by the first poll, `stop`
   * succeeds after one pass, reports nothing, and leaves no record and no
   * log file of any requested job that had a record.
   */
  lemma StopWhenAllHonour(disk: Disk, order: seq<string>, requested: seq<Project>, alive: nat -> int -> bool, fuel: nat)
    requires IsListing(order, disk.records)
    requires WellNamed(disk.records)
    requires GoneAt(disk.records, requested, alive(0))
    requires fuel > 0
    ensures var r := Stop(disk, order, requested, alive, fuel);
      && r.result == Ok({})
      && r.disk.records == (map f | f in disk.records && !Matches(f, requested) :: disk.records[f])
      && forall f :: f in disk.records && Matches(f, requested) ==> Decode(f).value.name !in r.disk.logs
  {
    var listing := Present(order, disk.records);
    HonouredPass(disk, listing, requested, alive(0));
    var r := Stop(disk, order, requested, alive, fuel);
    assert r.result.Ok?;
    PollLoopStops(disk, order, requested, alive, 0, fuel, Pass({}, true));
  }

  /** The pass a poll loop with time left makes first. */
  function FirstPass(disk: Disk, order: seq<string>, requested: seq<Project>, alive: nat -> int -> bool, pass: nat): Run<Pass, CorruptState>
    requires Distinct(order) && forall f :: f in disk.records ==> f in order
  {
    PollPass(disk, Present(order, disk.records), requested, alive(pass))
  }

  /** A completed first pass hands on what the poll loop requires of the last pass it carries. */
  lemma FirstPassKeepsInvariant(disk: Disk, order: seq<string>, requested: seq<Project>, alive: nat -> int -> bool, pass: nat)
    requires Distinct(order) && forall f :: f in disk.records ==> f in order
    requires FirstPass(disk, order, requested, alive, pass).result.Ok?
    ensures var p := FirstPass(disk, order, requested, alive, pass);
      && (p.result.value.finished <==> p.result.value.live == {})
      && p.result.value.live <= RequestedNames(p.disk.records, requested)
  {
    var listing := Present(order, disk.records);
    LiveNamesEmpty(listing, requested, alive(pass));
    LiveNamesRemain(disk, listing, requested, alive(pass));
  }

  /** A poll loop with time left whose first pass leaves requested processes alive runs on with one pass less. */
  lemma PollLoopContinues(disk: Disk, order: seq<string>, requested: seq<Project>, alive: nat -> int -> bool,
                          pass: nat, fuel: nat, last: Pass)
    requires Distinct(order) && forall f :: f in disk.records ==> f in order
    requires last.finished <==> last.live == {}
    requires last.live <= RequestedNames(disk.records, requested)
    requires fuel > 0
    requires FirstPass(disk, order, requested, alive, pass).result.Ok?
    requires !FirstPass(disk, order, requested, alive, pass).result.value.finished
    ensures var p := FirstPass(disk, order, requested, alive, pass);
      && (p.result.value.finished <==> p.result.value.live == {})
      && p.result.value.live <= RequestedNames(p.disk.records, requested)
      && PollLoop(disk, order, requested, alive, pass, fuel, last) ==
         PollLoop(p.disk, order, requested, alive, NextPass(pass), OneLess(fuel), p.result.value)
  {
    FirstPassKeepsInvariant(disk, order, requested, alive, pass);
  }

  /** A poll loop with time left stops after its first pass when that pass fails or finds nothing alive. */
  lemma PollLoopStops(disk: Disk, order: seq<string>, requested: seq<Project>, alive: nat -> int -> bool,
                      pass: nat, fuel: nat, last: Pass)
    requires Distinct(order) && forall f :: f in disk.records ==> f in order
    requires last.finished <==> last.live == {}
    requires last.live <= RequestedNames(disk.records, requested)
    requires fuel > 0
    requires FirstPass(disk, order, requested, alive, pass).result.Ok? ==>
      FirstPass(disk, order, requested, alive, pass).result.value.finished
    ensures PollLoop(disk, order, requested, alive, pass, fuel, last) == FirstPass(disk, order, requested, alive, pass)
  {
  }

  /** From pass `k` on, the process of every requested record in `records` is gone. */
  ghost predicate GoneFrom(records: Records, requested: seq<Project>, alive: nat -> int -> bool, k: nat) {
    forall j: nat :: k <= j ==> GoneAt(records, requested, alive(j))
  }

  /** Processes gone from the records of a directory are gone from what is left of it. */
  lemma GoneFromShrinks(records: Records, before: Records, requested: seq<Project>, alive: nat -> int -> bool, k: nat)
    requires Shrinks(records, before)
    requires GoneFrom(before, requested, alive, k)
    ensures GoneFrom(records, requested, alive, k)
  {
    forall j: nat | k <= j
      ensures GoneAt(records, requested, alive(j))
    {
      assert GoneAt(before, requested, alive(j));
    }
  }

  /** A poll of well-named records completes: no file name it meets is corrupt. */
  lemma FirstPassSucceeds(disk: Disk, order: seq<string>, requested: seq<Project>, alive: nat -> int -> bool, pass: nat)
    requires Distinct(order) && forall f :: f in disk.records ==> f in order
    requires WellNamed(disk.records)
    ensures FirstPass(disk, order, requested, alive, pass).result.Ok?
  {
    var listing := Present(order, disk.records);
    assert forall i :: 0 <= i < |listing| ==> listing[i] in disk.records;
  }

  /** A poll made once every requested process is gone completes and finds none alive. */
  lemma FinishedOnceGone(disk: Disk, order: seq<string>, requested: seq<Project>, alive: nat -> int -> bool, pass: nat, k: nat)
    requires Distinct(order) && forall f :: f in disk.records ==> f in order
    requires WellNamed(disk.records)
    requires GoneFrom(disk.records, requested, alive, k) && k <= pass
    ensures FirstPass(disk, order, requested, alive, pass).result.Ok?
    ensures FirstPass(disk, order, requested, alive, pass).result.value.finished
  {
    var listing := Present(order, disk.records);
    assert forall i :: 0 <= i < |listing| ==> listing[i] in disk.records;
    assert GoneAt(disk.records, requested, alive(pass));
    assert forall f :: f in listing ==> !LiveMatch(f, requested, alive(pass));
  }

  /** The poll loop ended without error on a pass that saw no requested process alive. */
  predicate EndsFinished(r: Run<Pass, CorruptState>) {
    r.result.Ok? && r.result.value.finished
  }

  /** A poll loop with time left whose processes are all gone ends after its first pass, finished. */
  lemma LoopEndsOnceGone(disk: Disk, order: seq<string>, requested: seq<Project>, alive: nat -> int -> bool,
                         pass: nat, fuel: nat, last: Pass, k: nat)
    requires Distinct(order) && forall f :: f in disk.records ==> f in order
    requires last.finished <==> last.live == {}
    requires last.live <= RequestedNames(disk.records, requested)
    requires WellNamed(disk.records)
    requires GoneFrom(disk.records, requested, alive, k) && k <= pass && fuel > 0
    ensures EndsFinished(PollLoop(disk, order, requested, alive, pass, fuel, last))
  {
    FinishedOnceGone(disk, order, requested, alive, pass, k);
    PollLoopStops(disk, order, requested, alive, pass, fuel, last);
  }

  /**
   * If every requested process is gone from pass `k` on, and `k` comes
   * before the time runs out, the poll loop ends with a finished pass.
   */
  lemma {:induction false} PollLoopHonoured(disk: Disk, order: seq<string>, requested: seq<Project>, alive: nat -> int -> bool,
                                            pass: nat, fuel: nat, last: Pass, k: nat)
    requires Distinct(order) && forall f :: f in disk.records ==> f in order
    requires last.finished <==> last.live == {}
    requires last.live <= RequestedNames(disk.records, requested)
    requires WellNamed(disk.records)
    requires GoneFrom(disk.records, requested, alive, k)
    requires pass <= k < pass + fuel
    ensures EndsFinished(PollLoop(disk, order, requested, alive, pass, fuel, last))
    decreases fuel, 1
  {
    if k <= pass {
      LoopEndsOnceGone(disk, order, requested, alive, pass, fuel, last, k);
    } else {
      FirstPassSucceeds(disk, order, requested, alive, pass);
      if FirstPass(disk, order, requested, alive, pass).result.value.finished {
        PollLoopStops(disk, order, requested, alive, pass, fuel, last);
      } else {
        LoopGoesOnUntilGone(disk, order, requested, alive, pass, fuel, last, k);
      }
    }
  }

  /** What is left after a poll still lists in `order`, is well named, and has its requested processes gone from pass `k` on. */
  lemma NextPassReady(disk: Disk, order: seq<string>, requested: seq<Project>, alive: nat -> int -> bool, pass: nat, k: nat)
    requires Distinct(order) && forall f :: f in disk.records ==> f in order
    requires WellNamed(disk.records)
    requires GoneFrom(disk.records, requested, alive, k)
    ensures var p := FirstPass(disk, order, requested, alive, pass);
      && (forall f :: f in p.disk.records ==> f in order)
      && WellNamed(p.disk.records)
      && GoneFrom(p.disk.records, requested, alive, k)
  {
    var p := FirstPass(disk, order, requested, alive, pass);
    GoneFromShrinks(p.disk.records, disk.records, requested, alive, k);
  }

  /** The step of `PollLoopHonoured` after a pass that still saw a requested process alive. */
  lemma {:induction false} LoopGoesOnUntilGone(disk: Disk, order: seq<string>, requested: seq<Project>, alive: nat -> int -> bool,
                                               pass: nat, fuel: nat, last: Pass, k: nat)
    requires Distinct(order) && forall f :: f in disk.records ==> f in order
    requires last.finished <==> last.live == {}
    requires last.live <= RequestedNames(disk.records, requested)
    requires WellNamed(disk.records)
    requires GoneFrom(disk.records, requested, alive, k)
    requires pass < k < pass + fuel
    requires FirstPass(disk, order, requested, alive, pass).result.Ok?
    requires !FirstPass(disk, order, requested, alive, pass).result.value.finished
    ensures EndsFinished(PollLoop(disk, order, requested, alive, pass, fuel, last))
    decreases fuel, 0
  {
    var p := FirstPass(disk, order, requested, alive, pass);
    PollLoopContinues(disk, order, requested, alive, pass, fuel, last);
    NextPassReady(disk, order, requested, alive, pass, k);
    PollLoopHonoured(p.disk, order, requested, alive, NextPass(pass), OneLess(fuel), p.result.value, k);
  }

  /**
   * `stop` of jobs whose processes all honour the termination request
   * within the time allowed succeeds, reports nothing, and leaves no record
   * of a requested job and no log file of a requested job that had one.
   */
  lemma StopWhenAllHonourInTime(disk: Disk, order: seq<string>, requested: seq<Project>, alive: nat -> int -> bool, fuel: nat, k: nat)
    requires IsListing(order, disk.records)
    requires WellNamed(disk.records)
    requires GoneFrom(disk.records, requested, alive, k) && k < fuel
    ensures var r := Stop(disk, order, requested, alive, fuel);
      && r.result == Ok({})
      && (forall f :: f in r.disk.records ==> !Matches(f, requested))
      && forall f :: f in disk.records && Matches(f, requested) ==> Decode(f).value.name !in r.disk.logs
  {
    PollLoopHonoured(disk, order, requested, alive, 0, fuel, Pass({}, true), k);
  }

  /**
   * A requested process that outlives every pass keeps its record through
   * `stop`, and when `stop` succeeds with time to poll, its job is among
   * those reported as not stopped.
   */
  lemma StopReportsSurvivor(disk: Disk, order: seq<string>, requested: seq<Project>, alive: nat -> int -> bool, fuel: nat, f: string)
    requires IsListing(order, disk.records)
    requires f in disk.records && Matches(f, requested)
    requires forall j: nat :: alive(j)(Decode(f).value.pid)
    ensures var r := Stop(disk, order, requested, alive, fuel);
      && f in r.disk.records
      && (r.result.Ok? && fuel > 0 ==> DisplayName(Owner(f, requested)) in r.result.value)
  {
    assert !DeadWithin(f, requested, alive, 0, fuel);
  }
}

=== FILE: outcomes.dfy ===
/** Optional values and success-or-error values, used for the supervisor's error paths. */
module Outcomes {

  /** A value that may be absent (Rust's `Option`). */
  datatype Option<+T> = None | Some(value: T) {

    /** The carried value, or `default` when absent (Rust's `unwrap_or`). */
    function GetOr(default: T): T {
      match this
      case Some(v) => v
      case None => default
    }
  }

  /** A computed value or the error that stopped the computation (Rust's `Result`). */
  datatype Result<+T, +E> = Ok(value: T) | Err(error: E)
}

=== FILE: statefile.dfy ===
/**
 * The name of a state-record file: the job name and the process id joined
 * by a dash, `<name>-<pid>`, written when a job is started and split back
 * on its first dash whenever the state directory is read.
 */
module StateFile {
  import opened Outcomes
  import opened Decimal

  /** What a state file name identifies: a job name and the process running it. */
  datatype Key = Key(name: string, pid: I32)

  /** Why a state file name cannot be read back (the source's `anyhow` contexts). */
  datatype CorruptState =
    | MissingDash(file: string)  // "File doesn't contain -"
    | BadPid(file: string)       // "Couldn't parse pid to i32"

  const Separator: char := '-'

  /** Position of the first `c` in `s`, or `|s|` when there is none. */
  function FirstIndex(s: string, c: char): (i: nat)
    ensures i <= |s|
    ensures i < |s| ==> s[i] == c
    ensures forall j :: 0 <= j < i ==> s[j] != c
    ensures i == |s| <==> c !in s
    decreases |s|
  {
    if |s| == 0 then 0
    else if s[0] == c then 0
    else 1 + FirstIndex(s[1..], c)
  }

  /** The file name `start` writes for job `name` running as process `pid`. */
  function Encode(name: string, pid: I32): (f: string)
    ensures |f| > |name| + 1
    ensures f[..|name|] == name && f[|name|] == Separator
  {
    name + [Separator] + Format(pid)
  }

  /**
   * `parse_state_filename`: the job name is the text before the first dash,
   * and the text after it must be a 32-bit integer.
   */
  function Decode(f: string): (r: Result<Key, CorruptState>)
    ensures Separator !in f ==> r == Err(MissingDash(f))
    ensures r.Ok? ==> Separator !in r.value.name
    ensures r.Ok? ==> |r.value.name| < |f| && f[..|r.value.name|] == r.value.name && f[|r.value.name|] == Separator
  {
    var i := FirstIndex(f, Separator);
    if i == |f| then Err(MissingDash(f))
    else
      match Parse(f[i + 1..])
      case None => Err(BadPid(f))
      case Some(pid) => Ok(Key(f[..i], pid))
  }

  /**
   * A file name made of a dash-free name, a dash and any text decodes to
   * that name and the integer the text denotes, or fails on the pid.
   */
  lemma DecodeSplit(name: string, rest: string)
    requires Separator !in name
    ensures Decode(name + [Separator] + rest) ==
      match Parse(rest)
      case None => Err(BadPid(name + [Separator] + rest))
      case Some(pid) => Ok(Key(name, pid))
  {
    var f := name + [Separator] + rest;
    var i := FirstIndex(f, Separator);
    assert f[|name|] == Separator;
    assert forall j :: 0 <= j < |name| ==> f[j] == name[j];
    assert i == |name|;
    assert f[..i] == name;
    assert f[i + 1..] == rest;
  }

  /** Decoding an encoded name gives back the job and process whenever the job name has no dash. */
  lemma RoundTrip(name: string, pid: I32)
    requires Separator !in name
    ensures Decode(Encode(name, pid)) == Ok(Key(name, pid))
  {
    DecodeSplit(name, Format(pid));
    ParseFormat(pid);
  }

  /**
   * A job name with a dash never round-trips: decoding stops at the name's
   * own first dash, so it either fails or yields a strictly shorter name.
   */
  lemma DashedNameDoesNotRoundTrip(name: string, pid: I32)
    requires Separator in name
    ensures Decode(Encode(name, pid)) != Ok(Key(name, pid))
    ensures Decode(Encode(name, pid)).Ok? ==> |Decode(Encode(name, pid)).value.name| < |name|
  {
    var f := Encode(name, pid);
    var r := Decode(f);
    if r.Ok? {
      var n := r.value.name;
      var k := FirstIndex(name, Separator);
      assert f[k] == Separator;
      assert |n| <= k;
    }
  }

  /** The job `my-app` started as process 42 leaves a file name that cannot be decoded. */
  lemma DashedNameIsCorrupt()
    ensures Decode(Encode("my-app", 42)) == Err(BadPid("my-app-42"))
  {
    assert Digits(4) == "4";
    assert Format(42) == "42";
    var f := Encode("my-app", 42);
    assert f == "my-app-42";
    assert f == "my" + [Separator] + "app-42";
    DecodeSplit("my", "app-42");
    assert Parse("app-42").None? by {
      ParseRejects("app-42");
      assert !IsSign("app-42"[0]) && !IsDigit("app-42"[0]);
    }
  }

  /**
   * The job `web-` started as process 42 leaves `web--42`, which decodes
   * without error to job `web` and process -42.
   */
  lemma TrailingDashMisreads()
    ensures Decode(Encode("web-", 42)) == Ok(Key("web", -42))
  {
    assert Digits(4) == "4";
    assert Format(42) == "42";
    assert Format(-42) == "-42";
    var f := Encode("web-", 42);
    assert f == "web" + [Separator] + "-42";
    DecodeSplit("web", "-42");
    ParseFormat(-42);
  }

  /** Distinct jobs or processes get distinct file names, as long as job names have no dash. */
  lemma EncodeInjective(a: string, p: I32, b: string, q: I32)
    requires Separator !in a && Separator !in b
    requires Encode(a, p) == Encode(b, q)
    ensures a == b && p == q
  {
    RoundTrip(a, p);
    RoundTrip(b, q);
  }

  /** Several file names decode to the same key, because the pid text need not be canonical. */
  lemma DecodeIsNotInjective()
    ensures Decode("web-7") == Ok(Key("web", 7))
    ensures Decode("web-007") == Ok(Key("web", 7))
    ensures Decode("web-+7") == Ok(Key("web", 7))
  {
    ParseIsNotCanonical();
    assert Parse("7") == Some(7) by { assert ValueOf("7") == 7; }
    assert "web-7" == "web" + [Separator] + "7";
    DecodeSplit("web", "7");
    assert "web-007" == "web" + [Separator] + "007";
    DecodeSplit("web", "007");
    assert "web-+7" == "web" + [Separator] + "+7";
    DecodeSplit("web", "+7");
  }
}

=== FILE: store.dfy ===
/**
 * The state directory (one record file per running job instance, named
 * `<name>-<pid>`) and the log directory (one log file per job name), and
 * the two commands that reconcile them with which processes are alive:
 * `status` and `stop`.
 *
 * The directories are values: records map file names to the job
 * definition stored in them, logs are the set of job names with a log
 * file. Which processes are alive is an oracle `alive: int -> bool`; the
 * order in which the directory is enumerated is a listing argument.
 */
module Store {
  import opened Outcomes
  import opened StateFile
  import opened Jobs

  type Records = map<string, Project>

  datatype Disk = Disk(records: Records, logs: set<string>)

  /** The directories after a command, and what the command returned. */
  datatype Run<+T, +E> = Run(disk: Disk, result: Result<T, E>)

  predicate Distinct(s: seq<string>) {
    forall i, j :: 0 <= i < j < |s| ==> s[i] != s[j]
  }

  /** `listing` enumerates some of the files of `records`, each at most once. */
  predicate ListsSome(listing: seq<string>, records: Records) {
    Distinct(listing) && forall i :: 0 <= i < |listing| ==> listing[i] in records
  }

  /** `listing` is one enumeration of the directory: every file of `records` exactly once. */
  predicate IsListing(listing: seq<string>, records: Records) {
    ListsSome(listing, records) && forall f :: f in records ==> f in listing
  }

  /** `records` keeps some entries of `before` unchanged and adds none. */
  predicate Shrinks(records: Records, before: Records) {
    forall f :: f in records ==> f in before && records[f] == before[f]
  }

  /** The files of a sequence are its first and those of its tail; a distinct sequence has a distinct tail without its first. */
  lemma DistinctTail(s: seq<string>)
    requires |s| > 0
    ensures forall g :: g in s <==> g == s[0] || g in s[1..]
    ensures Distinct(s) ==> Distinct(s[1..]) && s[0] !in s[1..]
  {
    assert forall g :: g in s <==> g == s[0] || g in s[1..];
  }

  /** Dropping the first file of a listing leaves a listing of the rest, with or without that file's record. */
  lemma ListsSomeTail(listing: seq<string>, records: Records)
    requires |listing| > 0 && ListsSome(listing, records)
    ensures forall g :: g in listing <==> g == listing[0] || g in listing[1..]
    ensures listing[0] !in listing[1..]
    ensures ListsSome(listing[1..], records)
    ensures ListsSome(listing[1..], records - {listing[0]})
  {
    assert forall g :: g in listing <==> g == listing[0] || g in listing[1..];
  }

  // ---------------------------------------------------------------- status

  /** The record file `f` names a process that is alive. */
  predicate LiveFile(f: string, alive: int -> bool) {
    Decode(f).Ok? && alive(Decode(f).value.pid)
  }

  /** The record file `f` names a process that is not alive. */
  predicate DeadFile(f: string, alive: int -> bool) {
    Decode(f).Ok? && !alive(Decode(f).value.pid)
  }

  /**
   * The loop of `status` over `listing`: a record whose process is alive
   * contributes its display name, a record whose process is gone is
   * deleted, and an undecodable file name aborts the scan (deletions
   * already made stay made).
   */
  function StatusScan(disk: Disk, listing: seq<string>, alive: int -> bool): (r: Run<set<string>, CorruptState>)
    requires ListsSome(listing, disk.records)
    ensures r.disk.logs == disk.logs
    ensures Shrinks(r.disk.records, disk.records)
    ensures forall f :: f in disk.records && f !in listing ==> f in r.disk.records
    ensures forall f :: f in disk.records && !DeadFile(f, alive) ==> f in r.disk.records
    ensures r.result.Ok? <==> forall i :: 0 <= i < |listing| ==> Decode(listing[i]).Ok?
    ensures r.result.Ok? ==> forall f :: f in listing ==> (f in r.disk.records <==> LiveFile(f, alive))
    ensures r.result.Ok? ==> r.result.value == set f | f in listing && LiveFile(f, alive) :: DisplayName(disk.records[f])
    decreases |listing|
  {
    if |listing| == 0 then Run(disk, Ok({}))
    else
      var f := listing[0];
      match Decode(f)
      case Err(e) => Run(disk, Err(e))
      case Ok(key) =>
        ListsSomeTail(listing, disk.records);
        if alive(key.pid) then
          var rest := StatusScan(disk, listing[1..], alive);
          match rest.result
          case Err(e) => rest
          case Ok(names) => Run(rest.disk, Ok(names + {DisplayName(disk.records[f])}))
        else
          StatusScan(disk.(records := disk.records - {f}), listing[1..], alive)
  }

  /**
   * `status`: the set of display names of the live records, with every
   * record of a dead process deleted from the state directory.
   */
  function Status(disk: Disk, listing: seq<string>, alive: int -> bool): (r: Run<set<string>, CorruptState>)
    requires IsListing(listing, disk.records)
    ensures r.disk.logs == disk.logs
    ensures Shrinks(r.disk.records, disk.records)
    ensures forall f :: f in disk.records && !DeadFile(f, alive) ==> f in r.disk.records
    ensures r.result.Ok? <==> forall f :: f in disk.records ==> Decode(f).Ok?
    ensures r.result.Ok? ==> r.disk.records == map f | f in disk.records && LiveFile(f, alive) :: disk.records[f]
    ensures r.result.Ok? ==> r.result.value == set f | f in disk.records && LiveFile(f, alive) :: DisplayName(disk.records[f])
  {
    assert forall f :: f in listing <==> f in disk.records;
    StatusScan(disk, listing, alive)
  }

  // ------------------------------------------------------------------ stop

  /** The record file `f` belongs to one of the `requested` jobs. */
  predicate Matches(f: string, requested: seq<Project>) {
    Decode(f).Ok? && FindByName(requested, Decode(f).value.name).Some?
  }

  /** The requested definition a matching record file belongs to (the first of its name). */
  function Owner(f: string, requested: seq<Project>): (p: Project)
    requires Matches(f, requested)
    ensures p in requested && p.name == Decode(f).value.name
  {
    FindByName(requested, Decode(f).value.name).value
  }

  /**
   * What the signalling pass did: the record files whose process was sent
   * a termination request, in order, and the error that cut the pass
   * short, if any.
   */
  datatype Signals = Signals(targets: seq<string>, error: Option<CorruptState>)

  /**
   * The first loop of `stop`: every record file whose job is requested has
   * its process sent a termination request. The outcome of each request is
   * ignored, so it cannot end the loop; an undecodable file name does.
   */
  function SignalScan(listing: seq<string>, requested: seq<Project>): (r: Signals)
    ensures forall k :: 0 <= k < |r.targets| ==> r.targets[k] in listing && Matches(r.targets[k], requested)
    ensures r.error.None? <==> forall i :: 0 <= i < |listing| ==> Decode(listing[i]).Ok?
    ensures r.error.None? ==> forall f :: f in listing && Matches(f, requested) ==> f in r.targets
    ensures Distinct(listing) ==> Distinct(r.targets)
    decreases |listing|
  {
    if |listing| == 0 then Signals([], None)
    else
      match Decode(listing[0])
      case Err(e) => Signals([], Some(e))
      case Ok(key) =>
        var rest := SignalScan(listing[1..], requested);
        DistinctTail(listing);
        if FindByName(requested, key.name).Some? then
          Signals([listing[0]] + rest.targets, rest.error)
        else rest
  }

  /** What one polling pass of `stop` saw: display names of requested jobs still alive, and whether there were none. */
  datatype Pass = Pass(live: set<string>, finished: bool)

  /** A matching record whose process is alive in this pass. */
  predicate LiveMatch(f: string, requested: seq<Project>, alive: int -> bool) {
    Matches(f, requested) && alive(Decode(f).value.pid)
  }

  /** A matching record whose process has gone. */
  predicate DeadMatch(f: string, requested: seq<Project>, alive: int -> bool) {
    Matches(f, requested) && !alive(Decode(f).value.pid)
  }

  /** Display names of the requested jobs that still have a live record among `listing`. */
  function LiveNames(listing: seq<string>, requested: seq<Project>, alive: int -> bool): set<string> {
    set f | f in listing && LiveMatch(f, requested, alive) :: DisplayName(Owner(f, requested))
  }

  lemma LiveNamesCons(listing: seq<string>, requested: seq<Project>, alive: int -> bool)
    requires |listing| > 0
    ensures LiveNames(listing, requested, alive) ==
      LiveNames(listing[1..], requested, alive) +
      (if LiveMatch(listing[0], requested, alive) then {DisplayName(Owner(listing[0], requested))} else {})
  {
    assert forall g :: g in listing <==> g == listing[0] || g in listing[1..];
  }

  /** No live names exactly when no listed requested record is alive. */
  lemma LiveNamesEmpty(listing: seq<string>, requested: seq<Project>, alive: int -> bool)
    ensures LiveNames(listing, requested, alive) == {} <==> forall f :: f in listing ==> !LiveMatch(f, requested, alive)
  {
    if exists f :: f in listing && LiveMatch(f, requested, alive) {
      var f :| f in listing && LiveMatch(f, requested, alive);
      assert DisplayName(Owner(f, requested)) in LiveNames(listing, requested, alive);
    }
  }

  /** Job names of the requested jobs that have a dead record among `listing`. */
  function DeadNames(listing: seq<string>, requested: seq<Project>, alive: int -> bool): set<string> {
    set f | f in listing && DeadMatch(f, requested, alive) :: Decode(f).value.name
  }

  lemma DeadNamesCons(listing: seq<string>, requested: seq<Project>, alive: int -> bool)
    requires |listing| > 0
    ensures DeadNames(listing, requested, alive) ==
      DeadNames(listing[1..], requested, alive) +
      (if DeadMatch(listing[0], requested, alive) then {Decode(listing[0]).value.name} else {})
  {
    assert forall g :: g in listing <==> g == listing[0] || g in listing[1..];
  }

  /**
   * One pass of the polling loop of `stop`. A record of a requested job
   * whose process is alive clears `finished` and contributes the requested
   * definition's display name; one whose process is gone is deleted
   * together with the log file of its job. Other records are left alone;
   * an undecodable file name aborts the pass.
   */
  function PollPass(disk: Disk, listing: seq<string>, requested: seq<Project>, alive: int -> bool): (r: Run<Pass, CorruptState>)
    requires ListsSome(listing, disk.records)
    ensures Shrinks(r.disk.records, disk.records)
    ensures forall f :: f in disk.records && !DeadMatch(f, requested, alive) ==> f in r.disk.records
    ensures r.result.Ok? <==> forall i :: 0 <= i < |listing| ==> Decode(listing[i]).Ok?
    ensures r.result.Ok? ==> r.result.value.live == LiveNames(listing, requested, alive)
    ensures r.result.Ok? ==> (r.result.value.finished <==> forall f :: f in listing ==> !LiveMatch(f, requested, alive))
    decreases |listing|
  {
    if |listing| == 0 then Run(disk, Ok(Pass({}, true)))
    else
      var f := listing[0];
      match Decode(f)
      case Err(e) => Run(disk, Err(e))
      case Ok(key) =>
        ListsSomeTail(listing, disk.records);
        match FindByName(requested, key.name)
        case None =>
          assert !LiveMatch(f, requested, alive);
          PollPass(disk, listing[1..], requested, alive)
        case Some(p) =>
          if alive(key.pid) then
            var rest := PollPass(disk, listing[1..], requested, alive);
            match rest.result
            case Err(e) => rest
            case Ok(pass) =>
              assert LiveMatch(f, requested, alive) && Owner(f, requested) == p;
              LiveNamesCons(listing, requested, alive);
              Run(rest.disk, Ok(Pass(pass.live + {DisplayName(p)}, false)))
          else
            assert !LiveMatch(f, requested, alive);
            PollPass(Disk(disk.records - {f}, disk.logs - {p.name}), listing[1..], requested, alive)
  }

  /**
   * What a polling pass does to the state directory: files outside the
   * listing stay, and when the pass completes exactly the listed records of
   * dead requested processes are gone.
   */
  lemma {:induction false} PollPassRecords(disk: Disk, listing: seq<string>, requested: seq<Project>, alive: int -> bool)
    requires ListsSome(listing, disk.records)
    ensures var r := PollPass(disk, listing, requested, alive);
      && (forall f :: f in disk.records && f !in listing ==> f in r.disk.records)
      && (r.result.Ok? ==> forall f :: f in listing ==> (f in r.disk.records <==> !DeadMatch(f, requested, alive)))
    decreases |listing|
  {
    if |listing| > 0 {
      var f := listing[0];
      ListsSomeTail(listing, disk.records);
      if Decode(f).Ok? {
        var key := Decode(f).value;
        match FindByName(requested, key.name)
        case None =>
          PollPassRecords(disk, listing[1..], requested, alive);
        case Some(p) =>
          if alive(key.pid) {
            PollPassRecords(disk, listing[1..], requested, alive);
          } else {
            PollPassRecords(Disk(disk.records - {f}, disk.logs - {p.name}), listing[1..], requested, alive);
          }
      }
    }
  }

  /**
   * What a polling pass does to the log directory: it loses only log files
   * of requested jobs, and when the pass completes exactly those of the
   * jobs with a dead record in the listing.
   */
  lemma {:induction false} PollPassLogs(disk: Disk, listing: seq<string>, requested: seq<Project>, alive: int -> bool)
    requires ListsSome(listing, disk.records)
    ensures var r := PollPass(disk, listing, requested, alive);
      && r.disk.logs <= disk.logs
      && (forall n :: n in disk.logs && n !in r.disk.logs ==> FindByName(requested, n).Some?)
      && (r.result.Ok? ==> r.disk.logs == disk.logs - DeadNames(listing, requested, alive))
    decreases |listing|
  {
    if |listing| > 0 {
      var f := listing[0];
      ListsSomeTail(listing, disk.records);
      if Decode(f).Ok? {
        var key := Decode(f).value;
        DeadNamesCons(listing, requested, alive);
        match FindByName(requested, key.name)
        case None =>
          PollPassLogs(disk, listing[1..], requested, alive);
        case Some(p) =>
          if alive(key.pid) {
            PollPassLogs(disk, listing[1..], requested, alive);
          } else {
            PollPassLogs(Disk(disk.records - {f}, disk.logs - {p.name}), listing[1..], requested, alive);
          }
      }
    }
  }

  /** Both halves of a polling pass's effect on the directories. */
  lemma PollPassDisk(disk: Disk, listing: seq<string>, requested: seq<Project>, alive: int -> bool)
    requires ListsSome(listing, disk.records)
    ensures var r := PollPass(disk, listing, requested, alive);
      && (forall f :: f in disk.records && f !in listing ==> f in r.disk.records)
      && r.disk.logs <= disk.logs
      && (forall n :: n in disk.logs && n !in r.disk.logs ==> FindByName(requested, n).Some?)
      && (r.result.Ok? ==> forall f :: f in listing ==> (f in r.disk.records <==> !DeadMatch(f, requested, alive)))
      && (r.result.Ok? ==> r.disk.logs == disk.logs - DeadNames(listing, requested, alive))
  {
    PollPassRecords(disk, listing, requested, alive);
    PollPassLogs(disk, listing, requested, alive);
  }

  /** Display names of the requested jobs that still have some record in `records`. */
  function RequestedNames(records: Records, requested: seq<Project>): set<string> {
    set f | f in records && Matches(f, requested) :: DisplayName(Owner(f, requested))
  }

  /** The files of `order` still present in `records`: the next enumeration of a shrinking directory. */
  function Present(order: seq<string>, records: Records): (l: seq<string>)
    ensures forall i :: 0 <= i < |l| ==> l[i] in records && l[i] in order
    ensures forall f :: f in order && f in records ==> f in l
    ensures Distinct(order) ==> Distinct(l)
    decreases |order|
  {
    if |order| == 0 then []
    else
      var rest := Present(order[1..], records);
      DistinctTail(order);
      if order[0] in records then
        [order[0]] + rest
      else rest
  }

  /** A pass with no live requested record removes every requested record it lists. */
  lemma FinishedPassClears(disk: Disk, listing: seq<string>, requested: seq<Project>, alive: int -> bool)
    requires IsListing(listing, disk.records)
    requires PollPass(disk, listing, requested, alive).result.Ok?
    requires PollPass(disk, listing, requested, alive).result.value.finished
    ensures forall f :: f in PollPass(disk, listing, requested, alive).disk.records ==> !Matches(f, requested)
  {
    PollPassDisk(disk, listing, requested, alive);
  }

  /** The live names a pass reports belong to requested jobs whose records it kept. */
  lemma LiveNamesRemain(disk: Disk, listing: seq<string>, requested: seq<Project>, alive: int -> bool)
    requires ListsSome(listing, disk.records)
    ensures LiveNames(listing, requested, alive) <= RequestedNames(PollPass(disk, listing, requested, alive).disk.records, requested)
  {
    var r := PollPass(disk, listing, requested, alive);
    forall x | x in LiveNames(listing, requested, alive)
      ensures x in RequestedNames(r.disk.records, requested)
    {
      var f :| f in listing && LiveMatch(f, requested, alive) && DisplayName(Owner(f, requested)) == x;
      assert f in r.disk.records;
    }
  }

  /**
   * A completed pass over the whole directory reports exactly the requested
   * jobs that still have a record: every record it keeps of a requested
   * job is one whose process it saw alive.
   */
  lemma PassReportsAllLive(disk: Disk, listing: seq<string>, requested: seq<Project>, alive: int -> bool)
    requires IsListing(listing, disk.records)
    requires PollPass(disk, listing, requested, alive).result.Ok?
    ensures PollPass(disk, listing, requested, alive).result.value.live ==
      RequestedNames(PollPass(disk, listing, requested, alive).disk.records, requested)
  {
    var r := PollPass(disk, listing, requested, alive);
    LiveNamesRemain(disk, listing, requested, alive);
    PollPassRecords(disk, listing, requested, alive);
    forall x | x in RequestedNames(r.disk.records, requested)
      ensures x in LiveNames(listing, requested, alive)
    {
      var f :| f in r.disk.records && Matches(f, requested) && DisplayName(Owner(f, requested)) == x;
      assert f in listing && LiveMatch(f, requested, alive);
    }
  }

  /**
   * The index of the pass after `pass`, and the passes left after one
   * more: functions of their own, so that the poll loop and every lemma
   * about its next step name the same terms.
   */
  function NextPass(pass: nat): nat {
    pass + 1
  }

  function OneLess(fuel: nat): nat
    requires fuel > 0
  {
    fuel - 1
  }

  /** The index of the last of `fuel` passes made from pass `pass` on. */
  function LastPass(pass: nat, fuel: nat): nat
    requires fuel > 0
  {
    pass + fuel - 1
  }

  /** The last pass after the first one is the last pass: of one pass, it is that pass. */
  lemma LastPassNext(pass: nat, fuel: nat)
    requires fuel > 0
    ensures OneLess(fuel) > 0 ==> LastPass(NextPass(pass), OneLess(fuel)) == LastPass(pass, fuel)
    ensures OneLess(fuel) == 0 ==> LastPass(pass, fuel) == pass
  {
  }

  /** One of the `fuel` passes made from pass `pass` on found the process of the requested record `f` gone. */
  ghost predicate DeadWithin(f: string, requested: seq<Project>, alive: nat -> int -> bool, pass: nat, fuel: nat) {
    exists j: nat :: pass <= j < pass + fuel && DeadMatch(f, requested, alive(j))
  }

  /**
   * A record gone after a pass and the passes that follow it was found
   * dead by that pass or by one of the following ones.
   */
  lemma DeletedWhenDead(before: Records, mid: Records, after: Records, requested: seq<Project>, alive: nat -> int -> bool,
                        pass: nat, fuel: nat)
    requires fuel > 0
    requires forall f :: f in before && !DeadMatch(f, requested, alive(pass)) ==> f in mid
    requires forall f :: f in mid && f !in after ==> DeadWithin(f, requested, alive, NextPass(pass), OneLess(fuel))
    ensures forall f :: f in before && f !in after ==> DeadWithin(f, requested, alive, pass, fuel)
  {
    forall f | f in before && f !in after
      ensures DeadWithin(f, requested, alive, pass, fuel)
    {
      if f in mid {
        var j: nat :| NextPass(pass) <= j < NextPass(pass) + OneLess(fuel) && DeadMatch(f, requested, alive(j));
      } else {
        assert DeadMatch(f, requested, alive(pass));
      }
    }
  }

  /** A pass that ends the loop leaves only records it found dead. */
  lemma DeletedByPass(before: Records, after: Records, requested: seq<Project>, alive: nat -> int -> bool, pass: nat, fuel: nat)
    requires fuel > 0
    requires forall f :: f in before && !DeadMatch(f, requested, alive(pass)) ==> f in after
    ensures forall f :: f in before && f !in after ==> DeadWithin(f, requested, alive, pass, fuel)
  {
    forall f | f in before && f !in after
      ensures DeadWithin(f, requested, alive, pass, fuel)
    {
      assert DeadMatch(f, requested, alive(pass));
    }
  }

  /** After a completed pass over the whole directory, every requested record left is one whose process the pass saw alive. */
  lemma SurvivorsAlive(disk: Disk, listing: seq<string>, requested: seq<Project>, alive: int -> bool)
    requires IsListing(listing, disk.records)
    requires PollPass(disk, listing, requested, alive).result.Ok?
    ensures forall f :: f in PollPass(disk, listing, requested, alive).disk.records && Matches(f, requested) ==>
      alive(Decode(f).value.pid)
  {
    PollPassRecords(disk, listing, requested, alive);
  }

  /**
   * A record a polling pass deletes takes its job's log file with it, and
   * the pass never puts that log file back, even if it aborts later on.
   */
  lemma {:induction false} PollPassDropsLogs(disk: Disk, listing: seq<string>, requested: seq<Project>, alive: int -> bool)
    requires ListsSome(listing, disk.records)
    ensures var r := PollPass(disk, listing, requested, alive);
      forall f :: f in disk.records && f !in r.disk.records ==> Decode(f).Ok? && Decode(f).value.name !in r.disk.logs
    decreases |listing|
  {
    if |listing| > 0 {
      var f := listing[0];
      ListsSomeTail(listing, disk.records);
      if Decode(f).Ok? {
        var key := Decode(f).value;
        match FindByName(requested, key.name)
        case None =>
          PollPassDropsLogs(disk, listing[1..], requested, alive);
        case Some(p) =>
          if alive(key.pid) {
            PollPassDropsLogs(disk, listing[1..], requested, alive);
          } else {
            var next := Disk(disk.records - {f}, disk.logs - {p.name});
            PollPassDropsLogs(next, listing[1..], requested, alive);
            PollPassLogs(next, listing[1..], requested, alive);
          }
      }
    }
  }

  /** Log files gone with records deleted earlier stay gone while later steps only shrink the log directory. */
  lemma DroppedLogsStay(before: Records, mid: Disk, after: Disk)
    requires forall f :: f in before && f !in mid.records ==> Decode(f).Ok? && Decode(f).value.name !in mid.logs
    requires after.logs <= mid.logs
    requires forall f :: f in mid.records && f !in after.records ==> Decode(f).Ok? && Decode(f).value.name !in after.logs
    ensures forall f :: f in before && f !in after.records ==> Decode(f).Ok? && Decode(f).value.name !in after.logs
  {
  }

  /** The process of record `f` was alive in each of the `fuel` passes made from pass `pass` on. */
  ghost predicate AliveThrough(f: string, alive: nat -> int -> bool, pass: nat, fuel: nat) {
    Decode(f).Ok? && forall j: nat :: pass <= j < pass + fuel ==> alive(j)(Decode(f).value.pid)
  }

  /** A process alive through a run of passes is alive at the last of them. */
  lemma AliveAtLastPass(records: Records, requested: seq<Project>, alive: nat -> int -> bool, pass: nat, fuel: nat)
    requires fuel > 0
    requires forall f :: f in records && Matches(f, requested) ==> AliveThrough(f, alive, pass, fuel)
    ensures forall f :: f in records && Matches(f, requested) ==> alive(LastPass(pass, fuel))(Decode(f).value.pid)
  {
    forall f | f in records && Matches(f, requested)
      ensures alive(LastPass(pass, fuel))(Decode(f).value.pid)
    {
      assert AliveThrough(f, alive, pass, fuel);
    }
  }

  /** Alive at this pass and through the passes after it is alive through them all. */
  lemma AliveThroughStep(mid: Records, after: Records, requested: seq<Project>, alive: nat -> int -> bool, pass: nat, fuel: nat)
    requires fuel > 0
    requires forall f :: f in mid && Matches(f, requested) ==> alive(pass)(Decode(f).value.pid)
    requires Shrinks(after, mid)
    requires forall f :: f in after && Matches(f, requested) ==> AliveThrough(f, alive, NextPass(pass), OneLess(fuel))
    ensures forall f :: f in after && Matches(f, requested) ==> AliveThrough(f, alive, pass, fuel)
  {
    forall f | f in after && Matches(f, requested)
      ensures AliveThrough(f, alive, pass, fuel)
    {
      assert AliveThrough(f, alive, NextPass(pass), OneLess(fuel));
      forall j: nat | pass <= j < pass + fuel
        ensures alive(j)(Decode(f).value.pid)
      {
        if j > pass {
          assert NextPass(pass) <= j < NextPass(pass) + OneLess(fuel);
        }
      }
    }
  }

  /**
   * The polling loop of `stop`, one pass per unit of `fuel` (the time left
   * before the timeout). It ends early after a pass that saw no live
   * requested record; `last` is the most recent pass, which is what the
   * loop reports when the time runs out.
   */
  function PollLoop(disk: Disk, order: seq<string>, requested: seq<Project>, alive: nat -> int -> bool,
                    pass: nat, fuel: nat, last: Pass): (r: Run<Pass, CorruptState>)
    requires Distinct(order) && forall f :: f in disk.records ==> f in order
    requires last.finished <==> last.live == {}
    requires last.live <= RequestedNames(disk.records, requested)
    ensures Shrinks(r.disk.records, disk.records)
    ensures forall f :: f in disk.records && !Matches(f, requested) ==> f in r.disk.records
    ensures r.disk.logs <= disk.logs
    ensures forall n :: n in disk.logs && n !in r.disk.logs ==> FindByName(requested, n).Some?
    ensures (forall f :: f in disk.records ==> Decode(f).Ok?) ==> r.result.Ok?
    ensures r.result.Ok? ==> (r.result.value.finished <==> r.result.value.live == {})
    ensures r.result.Ok? ==> r.result.value.live <= RequestedNames(r.disk.records, requested)
    ensures r.result.Ok? && fuel > 0 ==> r.result.value.live == RequestedNames(r.disk.records, requested)
    ensures r.result.Ok? && r.result.value.finished && fuel > 0 ==>
      forall f :: f in r.disk.records ==> !Matches(f, requested)
    ensures forall f :: f in disk.records && f !in r.disk.records ==> DeadWithin(f, requested, alive, pass, fuel)
    ensures r.result.Ok? ==> forall f :: f in r.disk.records && Matches(f, requested) ==> AliveThrough(f, alive, pass, fuel)
    ensures forall f :: f in disk.records && f !in r.disk.records ==> Decode(f).Ok? && Decode(f).value.name !in r.disk.logs
    decreases fuel
  {
    if fuel == 0 then Run(disk, Ok(last))
    else
      var listing := Present(order, disk.records);
      var p := PollPass(disk, listing, requested, alive(pass));
      PollPassDisk(disk, listing, requested, alive(pass));
      PollPassDropsLogs(disk, listing, requested, alive(pass));
      match p.result
      case Err(_) =>
        DeletedByPass(disk.records, p.disk.records, requested, alive, pass, fuel);
        p
      case Ok(seen) =>
        PassReportsAllLive(disk, listing, requested, alive(pass));
        LiveNamesEmpty(listing, requested, alive(pass));
        if seen.finished then
          FinishedPassClears(disk, listing, requested, alive(pass));
          DeletedByPass(disk.records, p.disk.records, requested, alive, pass, fuel);
          p
        else
          var r := PollLoop(p.disk, order, requested, alive, NextPass(pass), OneLess(fuel), seen);
          DeletedWhenDead(disk.records, p.disk.records, r.disk.records, requested, alive, pass, fuel);
          SurvivorsAlive(disk, listing, requested, alive(pass));
          DroppedLogsStay(disk.records, p.disk, r.disk);
          if r.result.Ok? then
            AliveThroughStep(p.disk.records, r.disk.records, requested, alive, pass, fuel);
            r
          else r
  }

  /** The directories after `stop`, the record files whose process it signalled, and the names it could not stop. */
  datatype StopRun = StopRun(disk: Disk, signalled: seq<string>, result: Result<set<string>, CorruptState>)

  /**
   * `stop`: signal every process of a requested job, then poll until none
   * is alive or `fuel` passes have been made (the 5-second timeout),
   * deleting the records and log files of the processes found dead. It
   * reports the display names of the requested jobs still alive at the
   * last pass, and nothing if that pass found none alive.
   */
  function Stop(disk: Disk, order: seq<string>, requested: seq<Project>, alive: nat -> int -> bool, fuel: nat): (r: StopRun)
    requires IsListing(order, disk.records)
    ensures forall k :: 0 <= k < |r.signalled| ==> r.signalled[k] in disk.records && Matches(r.signalled[k], requested)
    ensures Distinct(r.signalled)
    ensures r.result.Ok? ==> forall f :: f in disk.records && Matches(f, requested) ==> f in r.signalled
    ensures Shrinks(r.disk.records, disk.records)
    ensures forall f :: f in disk.records && !Matches(f, requested) ==> f in r.disk.records
    ensures r.disk.logs <= disk.logs
    ensures forall n :: n in disk.logs && n !in r.disk.logs ==> FindByName(requested, n).Some?
    ensures r.result.Ok? <==> forall f :: f in disk.records ==> Decode(f).Ok?
    ensures r.result.Ok? ==> r.result.value <= RequestedNames(r.disk.records, requested)
    ensures r.result.Ok? && fuel > 0 ==> r.result.value == RequestedNames(r.disk.records, requested)
    ensures r.result.Ok? && r.result.value == {} && fuel > 0 ==>
      forall f :: f in r.disk.records ==> !Matches(f, requested)
    ensures forall f :: f in disk.records && f !in r.disk.records ==> DeadWithin(f, requested, alive, 0, fuel)
    ensures r.result.Ok? && fuel > 0 ==>
      forall f :: f in r.disk.records && Matches(f, requested) ==> alive(LastPass(0, fuel))(Decode(f).value.pid)
    ensures r.result.Ok? ==> forall f :: f in r.disk.records && Matches(f, requested) ==> AliveThrough(f, alive, 0, fuel)
    ensures forall f :: f in disk.records && f !in r.disk.records ==> Decode(f).Ok? && Decode(f).value.name !in r.disk.logs
  {
    var sig := SignalScan(order, requested);
    assert forall f :: f in order <==> f in disk.records;
    match sig.error
    case Some(e) => StopRun(disk, sig.targets, Err(e))
    case None =>
      var poll := PollLoop(disk, order, requested, alive, 0, fuel, Pass({}, true));
      match poll.result
      case Err(e) => StopRun(poll.disk, sig.targets, Err(e))
      case Ok(last) =>
        if fuel > 0 then
          AliveAtLastPass(poll.disk.records, requested, alive, 0, fuel);
          StopRun(poll.disk, sig.targets, Ok(if last.finished then {} else last.live))
        else StopRun(poll.disk, sig.targets, Ok({}))
  }
}
